=== FILE: README.md ===
# Sales report processor — a Dafny model

This project models the data core of a small sales-report web app. The
function `processSalesData` turns decoded spreadsheet rows (one JavaScript
object per sales line, keyed by the header names) into the report that the
dashboard draws. It does this in four steps:

1. **Column resolver** (`findColumn`). Each of five roles (date, hour,
   product, quantity, revenue) gets the first header whose lower-cased text
   contains a lower-cased candidate fragment for that role. The candidates
   are English and Russian fragments. The run fails with no data, then
   without a revenue column, then without a product column.
2. **Record normalizer** (the `data.map` callback). Each row becomes one
   `SaleRecord`:
   - revenue and quantity are read from the cell after removing everything
     but digits, `.` and `-`; revenue defaults to `0` and quantity to `1`;
   - the product name is trimmed;
   - the date is parsed, and the hour comes from the hour cell, else from the
     date;
   - the weekday label comes from `DAYS_EN_MAP`, or is the sentinel
     `"Unknown"` when there is no valid date.
3. **Filter.** Only records with positive revenue are kept.
4. **Aggregator.** It computes:
   - totals and the average check;
   - seven zero-seeded day buckets in `DAYS_RU` order, for revenue and for
     transaction counts;
   - 24 zero-seeded hour buckets labelled `0:00`…`23:00`;
   - per-product revenue and quantity maps, stably sorted by descending value
     and cut to a top 10;
   - a share chart of the top seven products plus a `Другое` ("other")
     slice.

The model is functional:
- immutable datatypes, with sequences for arrays and maps;
- exact `real` amounts;
- the JavaScript primitives the core relies on, written out as pure
  functions: `toLowerCase`, `includes`, `trim`, the `[^\d.-]` strip,
  `parseFloat` on the stripped text, `parseInt`, `${n}`, the own-key order
  of `Object.keys`/`Object.entries`, and a stable sort.

Modules:
- `Wrappers`: `Option` and `Result`.
- `JsText`: string and number primitives.
- `Constants`: `DAYS_RU` and `DAYS_EN_MAP`.
- `Sequences`: sums, filters, maps and first occurrences over sequences.
- `Sorting`: a stable insertion sort and its order lemmas.
- `RawData`: cells, rows and own-key order.
- `Columns`: the column resolver.
- `Records`: the record normalizer and the `SaleRecord` shape.
- `Aggregate`: buckets, product lists, ranking, share and `ReportData`.
- `Processor`: `processSalesData`.

The chart points `{ day, value }`, `{ hour, value }` and `{ name, value }`
are all one datatype, `Point(key, value)`.

## Model

| member | source | states |
|---|---|---|
| `Constants.DaysRu` | constants.ts:2 | seven pairwise-distinct, non-empty labels, Monday first; none of them is the `"Unknown"` sentinel; the `"Пн"` fallback is the first |
| `Constants.DaysEnMap` | constants.ts:3-6 | the literal map, keyed by exactly the seven English weekday names; each name maps to the `DAYS_RU` label of the same day |
| `Constants.DaysEnMapOnto` | constants.ts:2-6 | every value is a `DAYS_RU` label, and every `DAYS_RU` label is the value of its own day's name (Monday for the first, Sunday for the last) |
| `Constants.DaysEnMapInjective` | constants.ts:3-6 | no two weekday names share a label, so with the above the map is a bijection onto `DAYS_RU` |
| `JsText.ToLower` | utils/dataProcessor.ts:7 | same length, each character is the lower-case partner of the input character at its position, no folded capital is left, and lower-case text is unchanged |
| `JsText.LowerChar` | utils/dataProcessor.ts:7 | Latin `A`–`Z` and Cyrillic `А`–`Я` move 32 code points up, `Ѐ`–`Џ` 80 up; every other character is its own partner, and no partner is a folded capital |
| `JsText.ToLowerIdempotent` | utils/dataProcessor.ts:7 | lower-casing twice is lower-casing once |
| `JsText.Includes` | utils/dataProcessor.ts:7 | true exactly when the fragment occurs at some position |
| `JsText.Trim` | utils/dataProcessor.ts:28 | the result is a contiguous piece of the input, only whitespace was cut on either side, and it neither starts nor ends with whitespace |
| `JsText.TrimIgnoresPadding` | utils/dataProcessor.ts:28 | whitespace added on either side does not change the trimmed product name |
| `JsText.StripNonNumeric` | utils/dataProcessor.ts:26-27 | the stripped text holds only digits, `.` and `-`; text already in that alphabet is kept whole, and text with none of them becomes empty |
| `JsText.StripDistributes` | utils/dataProcessor.ts:26-27 | stripping works character by character: strip of a concatenation is the concatenation of the strips |
| `JsText.ParseStrippedFloat` | utils/dataProcessor.ts:26-27 | `parseFloat` of stripped text: `NaN` when there is no digit at all (so a bare `"-"` or `"."` is `NaN`); a number whenever the text starts with a digit; a leading `-` negates the parse of the rest unless a second `-` follows, which is `NaN`; a leading `.` reads the following digits as a fraction, `NaN` without any; negative only after a leading `-` |
| `JsText.ParseInt` | utils/dataProcessor.ts:37 | `parseInt`: `NaN` on blank text and whenever the trimmed text, after an optional sign, does not start with a digit; a number whenever the text starts with `1`–`9`; after leading whitespace, a `+` or `-` applies to the parse of the rest when that goes on with neither whitespace nor another sign, and is `NaN` otherwise; `0x`/`0X` reads the following hexadecimal digits, `NaN` without any; negative only after a `-` |
| `JsText.ParseIntTrims` | utils/dataProcessor.ts:37 | `parseInt` of a text equals `parseInt` of its `trimStart`: leading whitespace is skipped |
| `JsText.NatToString` | utils/dataProcessor.ts:94 | `${n}` is a non-empty run of decimal digits, with no leading zero, whose value is `n` |
| `JsText.ParseFloatWhole` | utils/dataProcessor.ts:26-27 | `parseFloat` of stripped text that starts with a digit and has no `.` after its digits is the value of those digits |
| `JsText.ParseFloatPoint` | utils/dataProcessor.ts:26-27 | `parseFloat` of stripped text with a `.` right after its leading digits reads the digits on both sides of the point |
| `JsText.FractionRoundTrip` | utils/dataProcessor.ts:26-27 | a numeral, a point and a run of digits read back as the number plus the digits divided by ten to the power of their count |
| `JsText.ParseIntDecimal` | utils/dataProcessor.ts:37 | `parseInt` of text that starts with a decimal digit and has no `0x` prefix is the value of its leading digits |
| `JsText.NumeralRoundTrip` | utils/dataProcessor.ts:26-27 | `parseFloat` and `parseInt` read a numeral back as its number when what follows cannot continue it |
| `JsText.NegativeNumeralRoundTrip` | utils/dataProcessor.ts:26-27 | a leading minus sign is read by both parsers as a negative number |
| `JsText.IntNumeralRoundTrip` | utils/dataProcessor.ts:37 | `parseInt` reads a numeral back when what follows is not a digit and does not form a `0x` prefix |
| `JsText.IndexNumeral` | utils/dataProcessor.ts:106 | the numeral of any number up to 2^32-2 is an array-index key, and its index value is that number |
| `Sequences.Filter` | utils/dataProcessor.ts:62 | the kept elements satisfy the predicate and come from the input, every input element satisfying it is kept, and nothing is added |
| `Sequences.FirstOccurrences` | utils/dataProcessor.ts:101-103 | product names without repetition, with exactly the names of the input, listed in order of first occurrence |
| `Sequences.FirstOccurrencesSnoc` | utils/dataProcessor.ts:101-103 | one more element adds its name at the end when the name is new, and changes nothing otherwise |
| `Sequences.Map` | utils/dataProcessor.ts:25 | one result per element, each the function applied to the element at the same position |
| `Sorting.SortDesc` | utils/dataProcessor.ts:107 | a permutation of the entries, non-increasing by value |
| `Sorting.SortDescStable` | utils/dataProcessor.ts:107 | stable: the entries of each value keep their input order |
| `Sorting.SortDescSum` | utils/dataProcessor.ts:116-118 | sorting leaves every sum over the entries unchanged |
| `Sorting.SortedPrefixLargest` | utils/dataProcessor.ts:108 | nothing past a slice of a sorted list is larger than anything inside it |
| `RawData.Get` | utils/dataProcessor.ts:26 | `row[key]`: the cell of the first field with that key, `undefined` when the row has no such key, and never a cell stored under another key |
| `RawData.Truthy` | utils/dataProcessor.ts:31-36 | JavaScript truthiness: `undefined` and `null` are falsy; a boolean is truthy when it prints as `"true"`, a string when it is not empty, a number when it is not 0 |
| `RawData.WordCellIsNaN` | utils/dataProcessor.ts:26-37 | `String(cell)` of `undefined`, `null` or a boolean holds no digit, `.` or `-`, so it strips to nothing, and `parseInt` reads `NaN` from it |
| `RawData.OwnKeyOrder` | utils/dataProcessor.ts:106 | `Object.entries` order: a permutation of the creation order that ends with the non-index keys in creation order, and that is the creation order itself when no key is an array index |
| `RawData.KeyedAreFilters` | utils/dataProcessor.ts:106 | the array-index keys and the other keys are the two filters of the creation order by whether a key is an array index |
| `RawData.OwnKeyOrderIndicesFirst` | utils/dataProcessor.ts:14 | array-index keys come before all other keys, in ascending numeric order |
| `RawData.OwnKeyOrderSum` | utils/dataProcessor.ts:111 | listing the entries in own-key order leaves their sum unchanged |
| `RawData.Keys` | utils/dataProcessor.ts:14 | `Object.keys(data[0])`: position by position the keys of the own-key order of the fields, so the creation order when no key is an array index |
| `Columns.MatchesAny` | utils/dataProcessor.ts:7 | true exactly when the lower-cased header contains some lower-cased candidate |
| `Columns.FindColumn` | utils/dataProcessor.ts:5-9 | the first header, in header order, that matches some candidate; none exactly when no header matches |
| `Columns.ResolveColumns` | utils/dataProcessor.ts:16-20 | each of the five roles resolves to the first header matching its own candidate list, or to none when no header does |
| `Columns.FoundColumnNonEmpty` | utils/dataProcessor.ts:22-23 | with non-empty candidates a found header is non-empty, so the truthiness test `!col` only asks whether the role was found |
| `Columns.ResolvedHeadersNonEmpty` | utils/dataProcessor.ts:16-20 | every header resolved for the five roles is a non-empty string |
| `Records.RevenueOf` | utils/dataProcessor.ts:26 | revenue is non-zero exactly when the stripped cell parses to a non-zero number, and is then that number; otherwise 0 |
| `Records.QuantityOf` | utils/dataProcessor.ts:27 | quantity is never 0: a non-zero parse of the stripped cell, else 1 |
| `Records.WeekdayLabel` | utils/dataProcessor.ts:46-48 | a valid date's English weekday name is always in `DAYS_EN_MAP`, so the label is that day's `DAYS_RU` label and the `"Пн"` fallback is never taken |
| `Records.Normalize` | utils/dataProcessor.ts:25-61 | each field's rule: revenue, quantity and the trimmed product come from their cells; the date is parsed only from a truthy cell of a resolved date column; the day is the date's `DAYS_RU` label, else `"Unknown"`; the hour comes from a truthy hour cell, else the date, else is absent |
| `Records.RevenueIgnoresDecoration` | utils/dataProcessor.ts:26 | currency signs, spaces and other non-numeric characters around a numeral do not change the revenue |
| `Records.DecimalCommaIsDropped` | utils/dataProcessor.ts:26 | a decimal comma is stripped away: `"500,50"` reads as 50050 |
| `Records.QuantityDefaults` | utils/dataProcessor.ts:27 | an absent cell, a cell with no digit, `.` or `-`, and a zero all count as quantity 1 |
| `Records.FalsyHourFallsThrough` | utils/dataProcessor.ts:36-43 | when the hour column is resolved but its cell is falsy, the hour is that of the valid date, or absent without one |
| `Aggregate.SumOfOnes` | utils/dataProcessor.ts:77 | adding one per record counts the records |
| `Aggregate.AvgCheck` | utils/dataProcessor.ts:68 | 0 with no transactions; otherwise the amount that, times the transaction count, gives the total |
| `Aggregate.DayKey` | utils/dataProcessor.ts:75 | a record has a day bucket key exactly when its day label is present, non-empty and not `"Unknown"`; the key is that label |
| `Aggregate.BucketTotals` | utils/dataProcessor.ts:73 | every key of the fixed list is present in the bucket map (zero-seeded) |
| `Aggregate.BucketTotalsValue` | utils/dataProcessor.ts:74-79 | each bucket holds the sum over exactly the records with its key |
| `Aggregate.BucketSeriesSum` | utils/dataProcessor.ts:87-91 | with distinct keys, the series adds up to the sum over the records that fall into some bucket |
| `Aggregate.BucketPartition` | utils/dataProcessor.ts:75 | every record either falls into a bucket or is skipped, so the two sums make up the total |
| `Aggregate.DayKeyOfLabel` | utils/dataProcessor.ts:75-76 | a record lands in a day's bucket exactly when it carries that day's label |
| `Aggregate.DaySeries` | utils/dataProcessor.ts:125-126 | seven points in `DAYS_RU` order, each the sum over that day's records, adding up to the sum over records with a known day |
| `Aggregate.HourKey` | utils/dataProcessor.ts:88 | a record has an hour bucket key exactly when its hour is present and within 0..23; the key is that hour |
| `Aggregate.HourLabel` | utils/dataProcessor.ts:94 | `${i}:00` is the numeral of `i` followed by `:00`, and `parseInt` reads it back as `i`, so different hours get different labels |
| `Aggregate.HourSeries` | utils/dataProcessor.ts:81-96 | 24 points labelled `i:00` in ascending order, each the revenue of that hour's records, adding up to the revenue of records with an hour in range |
| `Aggregate.ProductNames` | utils/dataProcessor.ts:101-104 | each product name once, exactly the names that occur, in order of first encounter |
| `Aggregate.ProductNamesSnoc` | utils/dataProcessor.ts:101-104 | one more record appends its product name when the name is new and leaves the list alone otherwise |
| `Aggregate.ProductEntries` | utils/dataProcessor.ts:99-104 | one entry per distinct product, in first-encounter order, holding the sum over that product's records; all together the sum over all records |
| `Aggregate.ProductEntriesCount` | utils/dataProcessor.ts:99-104 | there are as many entries as distinct product names |
| `Aggregate.EveryProductBucketed` | utils/dataProcessor.ts:101-103 | every record adds to its own product's entry, so none is skipped |
| `Aggregate.Ranked` | utils/dataProcessor.ts:106-107 | a permutation of the entries, non-increasing by value, with the same sum |
| `Aggregate.RankedStable` | utils/dataProcessor.ts:107 | entries of equal value keep their `Object.entries` order |
| `Aggregate.RankedTiesInCreationOrder` | utils/dataProcessor.ts:107 | when no product name is an array index, ties stay in first-encounter order |
| `Aggregate.Top` | utils/dataProcessor.ts:106-114 | the top list is the first `min(n, entries)` entries of the stable ranking: largest first, each one of the entries |
| `Aggregate.TopKeepsLargest` | utils/dataProcessor.ts:108 | no entry left out of a top list is larger than one kept |
| `Aggregate.Share` | utils/dataProcessor.ts:130 | up to seven entries it is the ranking itself; beyond that, the first seven ranked entries plus one `Другое` entry holding the sum of the rest; its slices always add up to the whole |
| `Aggregate.Summarize` | utils/dataProcessor.ts:65-131 | the report keeps the records; the totals are the sums of revenue and quantity and the record count; the share adds up to the total revenue; the top lists have `min(10, distinct products)` entries |
| `Processor.Message` | utils/dataProcessor.ts:12-23 | the three errors carry the three messages the source throws, one each |
| `Processor.ProcessSalesData` | utils/dataProcessor.ts:11-23 | no rows fail first; a missing revenue column fails next, even when the product column is missing too; then a missing product column; otherwise the report of the kept records |
| `Processor.NormalizeAll` | utils/dataProcessor.ts:25-61 | one record per row, each satisfying the normalizer's invariants |
| `Processor.Kept` | utils/dataProcessor.ts:62 | the filter of the normalized rows by positive revenue, in row order: at most one record per row, each normalized |
| `Processor.KeptSnoc` | utils/dataProcessor.ts:25-62 | no rows keep nothing; one more row appends its record exactly when that record has positive revenue |
| `Processor.KeptRecords` | utils/dataProcessor.ts:25-62 | a row whose record has positive revenue is kept, and every kept record comes from some row |
| `Processor.Totals` | utils/dataProcessor.ts:65-68 | totals are the sums over the kept records, the average check is `AvgCheck` of them, and the revenue is positive exactly when a record was kept |
| `Processor.DayBucketsMissOnlyUnknown` | utils/dataProcessor.ts:75 | among normalized records, exactly those with the `"Unknown"` day miss the day buckets |
| `Processor.DaySeriesAccount` | utils/dataProcessor.ts:70-79 | seven points per day series; revenue per day and count per day; the revenue series is short of the total by exactly the revenue of `"Unknown"`-day records, and the count series is short by their number |
| `Processor.HourSeriesAccount` | utils/dataProcessor.ts:81-96 | 24 hour points labelled in order; each is the revenue of its hour; with positive revenues the series never exceeds the total |
| `Processor.ProductListsAccount` | utils/dataProcessor.ts:98-130 | each top list is the start of the stable ranking of the per-product totals, with `min(10, distinct products)` entries, largest first; the share is `Share` of the per-product revenue totals (the first seven ranked, then the `Другое` remainder), with `min(7, distinct)` entries or 8 beyond seven, adding up to the total revenue |

## Left out

- The user interface is not part of this model:
  - App.tsx, with its React state, file reading and PDF export;
  - the chart components;
  - the AI-insight service (a network call);
  - the mock-data script (random data, file output).
- Byte decoding is not modelled. The model starts from decoded rows, and the
  CSV/spreadsheet decoders are not part of it.
- `new Date(cell)`, `getDay`, `getHours` and `toLocaleDateString('en-US')`
  depend on locale and time zone. They are a parameter `parseDate`. It
  returns the weekday (0 is Sunday) and the hour of a valid date, or none
  for an invalid one. An absent or falsy date cell never reaches it.
- Amounts are exact reals. IEEE-754 rounding in sums, in `avgCheck` and in
  `parseFloat` is not modelled, and neither is the 2^53 limit of
  `parseInt`'s result.
- `String(n)` of a number cell is not computed. A number cell carries the
  text its decoder would print.
- JsText.ToLower: folds only ASCII and the basic Cyrillic capitals
  U+0400–U+042F, not every cased character of Unicode.
- Records.Normalize: an hour cell that `parseInt` reads as `NaN` is an absent
  hour. The source stores `NaN`, which, like absence, fails the range test of
  the hour buckets. The source stores the `Date` object, and the model
  stores only its weekday and hour.
- A `null` or `undefined` data argument cannot occur in a sequence; only
  the empty input is modelled.
- With dynamic typing the CSV decoder can turn a timestamp cell into a
  `Date` object. `Cell` has no `Date` variant, so such a cell (which
  `String(date)` and `parseInt` would read as `NaN` in the hour column) is
  not modelled; a date cell is text or a number handed to `parseDate`.
- Decoded rows are trusted, not checked: the keys of a row are distinct, as
  in any JavaScript object, and a number cell's `shown` text is the printed
  form of its `value`. A cell such as `Number(0.0, "14")`, which no decoder
  produces, would be falsy yet parse as 14.
- Product names that JavaScript objects treat specially, such as
  `__proto__`, are ordinary keys here.
- A day label outside `DAYS_RU` would create a `NaN` entry in the day maps
  that is never emitted. It is simply not counted. Normalized records never
  carry one.
- Behaviours of the code worth noting:
  - quantity also defaults to 1 when it parses as zero;
  - a truthy hour cell that `parseInt` cannot read gives no hour rather
    than falling back to the date;
  - the remainder slice is named `Другое`;
  - product entries list array-index names (such as `"42"`) first, in
    numeric order, as `Object.entries` does, and only then the other names
    in first-encounter order.

=== FILE: aggregate.dfy ===
/** The aggregations of the processor: totals over the kept records, the
    revenue and transaction count per weekday, the revenue per hour of the
    day, and the per-product revenue and quantity lists ranked into top-10
    lists and a share chart. */
module Aggregate {
  import opened Wrappers
  import opened JsText
  import opened Constants
  import opened Sequences
  import opened Sorting
  import opened RawData
  import opened Records

  /** One point of a chart series: `{ day, value }`, `{ hour, value }` or
      `{ name, value }`, with the first field written `key`. */
  datatype Point = Point(key: string, value: real)

  function Label(p: Point): string {
    p.key
  }

  function Value(p: Point): real {
    p.value
  }

  function Revenue(r: SaleRecord): real {
    r.revenue
  }

  function Quantity(r: SaleRecord): real {
    r.qty
  }

  /** The term each record contributes to a transaction count. */
  function One(r: SaleRecord): real {
    1.0
  }

  /** A count read as a sum: adding one per element gives the length. */
  lemma {:induction false} SumOfOnes(rs: seq<SaleRecord>)
    ensures SumBy(rs, One) == |rs| as real
  {
    if rs != [] {
      SumOfOnes(rs[1..]);
    }
  }

  /** `totalTransactions > 0 ? totalRevenue / totalTransactions : 0`: the
      amount that, paid by every transaction, makes up the total. */
  function AvgCheck(total: real, count: nat): (a: real)
    ensures count == 0 ==> a == 0.0
    ensures count > 0 ==> a * (count as real) == total
  {
    if count > 0 then total / (count as real) else 0.0
  }

  // ---------------------------------------------------------------------------
  // Buckets: a map seeded with zero on a fixed list of keys, to which each
  // record adds its term when its key is one of them.
  // ---------------------------------------------------------------------------

  predicate Distinct<K(==)>(keys: seq<K>) {
    forall i, j :: 0 <= i < j < |keys| ==> keys[i] != keys[j]
  }

  function HasKey<K(==)>(keyOf: SaleRecord -> Option<K>, k: K): SaleRecord -> bool {
    r => keyOf(r) == Some(k)
  }

  function KeyAmong<K(==)>(keyOf: SaleRecord -> Option<K>, keys: seq<K>): SaleRecord -> bool {
    r => keyOf(r).Some? && keyOf(r).value in keys
  }

  function KeyOutside<K(==)>(keyOf: SaleRecord -> Option<K>, keys: seq<K>): SaleRecord -> bool {
    r => !(keyOf(r).Some? && keyOf(r).value in keys)
  }

  /** The records that fall into bucket `k`, in order. */
  function InBucket<K(==)>(rs: seq<SaleRecord>, keyOf: SaleRecord -> Option<K>, k: K): seq<SaleRecord> {
    Filter(rs, HasKey(keyOf, k))
  }

  /** The records that fall into some bucket, in order. */
  function Bucketed<K(==)>(rs: seq<SaleRecord>, keyOf: SaleRecord -> Option<K>, keys: seq<K>): seq<SaleRecord> {
    Filter(rs, KeyAmong(keyOf, keys))
  }

  /** The records that fall into no bucket, in order. */
  function Unbucketed<K(==)>(rs: seq<SaleRecord>, keyOf: SaleRecord -> Option<K>, keys: seq<K>): seq<SaleRecord> {
    Filter(rs, KeyOutside(keyOf, keys))
  }

  /** The bucket map after a `forEach` over `rs`: every key starts at zero and
      a record whose key is one of `keys` adds `f(record)` to it; any other
      record is skipped. */
  function BucketTotals<K(==)>(rs: seq<SaleRecord>, keys: seq<K>, keyOf: SaleRecord -> Option<K>, f: SaleRecord -> real): (m: map<K, real>)
    ensures forall i :: 0 <= i < |keys| ==> keys[i] in m
  {
    if rs == [] then
      map k | k in keys :: 0.0
    else
      var m := BucketTotals(rs[..|rs| - 1], keys, keyOf, f);
      var r := rs[|rs| - 1];
      var k := keyOf(r);
      if k.Some? && k.value in keys then m[k.value := m[k.value] + f(r)] else m
  }

  /** Each bucket holds the sum over exactly the records with its key. */
  lemma {:induction false} BucketTotalsValue<K>(rs: seq<SaleRecord>, keys: seq<K>, keyOf: SaleRecord -> Option<K>, f: SaleRecord -> real, i: nat)
    requires i < |keys|
    ensures BucketTotals(rs, keys, keyOf, f)[keys[i]] == SumBy(InBucket(rs, keyOf, keys[i]), f)
    decreases |rs|
  {
    if rs != [] {
      var p, r := rs[..|rs| - 1], rs[|rs| - 1];
      assert rs == p + [r];
      BucketTotalsValue(p, keys, keyOf, f, i);
      FilterSnoc(p, r, HasKey(keyOf, keys[i]));
      var m := BucketTotals(p, keys, keyOf, f);
      if keyOf(r) == Some(keys[i]) {
        assert BucketTotals(rs, keys, keyOf, f)[keys[i]] == m[keys[i]] + f(r);
        SumBySnoc(InBucket(p, keyOf, keys[i]), r, f);
      } else {
        assert BucketTotals(rs, keys, keyOf, f)[keys[i]] == m[keys[i]];
        assert InBucket(p, keyOf, keys[i]) + [] == InBucket(p, keyOf, keys[i]);
        assert InBucket(rs, keyOf, keys[i]) == InBucket(p, keyOf, keys[i]);
      }
    }
  }

  /** The series `keys.map((k, i) => ({ labels[i], value: m[k] }))`. */
  function Series<K>(keys: seq<K>, labels: seq<string>, m: map<K, real>): (s: seq<Point>)
    requires |labels| == |keys|
    requires forall i :: 0 <= i < |keys| ==> keys[i] in m
    ensures |s| == |keys|
  {
    seq(|keys|, i requires 0 <= i < |keys| => Point(labels[i], m[keys[i]]))
  }

  /** With distinct keys no record is counted twice: the whole series adds
      up to the sum over the records that fall into some bucket. */
  lemma {:induction false} BucketSeriesSum<K>(rs: seq<SaleRecord>, keys: seq<K>, labels: seq<string>, keyOf: SaleRecord -> Option<K>, f: SaleRecord -> real)
    requires |labels| == |keys| && Distinct(keys)
    ensures SumBy(Series(keys, labels, BucketTotals(rs, keys, keyOf, f)), Value) == SumBy(Bucketed(rs, keyOf, keys), f)
    decreases |rs|
  {
    var s := Series(keys, labels, BucketTotals(rs, keys, keyOf, f));
    if rs == [] {
      SumByZero(s, Value);
    } else {
      var p, r := rs[..|rs| - 1], rs[|rs| - 1];
      assert rs == p + [r];
      BucketSeriesSum(p, keys, labels, keyOf, f);
      FilterSnoc(p, r, KeyAmong(keyOf, keys));
      SumBySnoc(Bucketed(p, keyOf, keys), r, f);
      SeriesStep(p, r, keys, labels, keyOf, f);
      if !KeyAmong(keyOf, keys)(r) {
        assert Bucketed(p, keyOf, keys) + [] == Bucketed(p, keyOf, keys);
      }
    }
  }

  /** One more record adds its amount to the series exactly when its key is
      one of the buckets. */
  lemma {:induction false} SeriesStep<K>(p: seq<SaleRecord>, r: SaleRecord, keys: seq<K>, labels: seq<string>, keyOf: SaleRecord -> Option<K>, f: SaleRecord -> real)
    requires |labels| == |keys| && Distinct(keys)
    ensures SumBy(Series(keys, labels, BucketTotals(p + [r], keys, keyOf, f)), Value)
            == SumBy(Series(keys, labels, BucketTotals(p, keys, keyOf, f)), Value) + (if KeyAmong(keyOf, keys)(r) then f(r) else 0.0)
  {
    var rs := p + [r];
    assert rs[..|rs| - 1] == p && rs[|rs| - 1] == r;
    var s := Series(keys, labels, BucketTotals(rs, keys, keyOf, f));
    var before := Series(keys, labels, BucketTotals(p, keys, keyOf, f));
    var k := keyOf(r);
    if k.Some? && k.value in keys {
      var idx :| 0 <= idx < |keys| && keys[idx] == k.value;
      SumByBump(before, s, Value, idx, f(r));
    } else {
      assert BucketTotals(rs, keys, keyOf, f) == BucketTotals(p, keys, keyOf, f);
      assert s == before;
    }
  }

  /** Every record either falls into a bucket or is skipped. */
  lemma {:induction false} BucketPartition<K>(rs: seq<SaleRecord>, keyOf: SaleRecord -> Option<K>, keys: seq<K>, f: SaleRecord -> real)
    ensures SumBy(Bucketed(rs, keyOf, keys), f) + SumBy(Unbucketed(rs, keyOf, keys), f) == SumBy(rs, f)
  {
    FilterSplitSum(rs, KeyAmong(keyOf, keys), KeyOutside(keyOf, keys), f);
  }

  // ---------------------------------------------------------------------------
  // By day
  // ---------------------------------------------------------------------------

  /** `r.dayOfWeek && r.dayOfWeek !== "Unknown"`: the record's day label when
      it is present, non-empty and not the sentinel. `DayKeyOfLabel` and
      `Processor.DayBucketsMissOnlyUnknown` say which records this sends to
      which day bucket. */
  function DayKey(r: SaleRecord): (k: Option<string>)
    ensures k.Some? <==> r.dayOfWeek.Some? && r.dayOfWeek.value != "" && r.dayOfWeek.value != Unknown
    ensures k.Some? ==> k == r.dayOfWeek
  {
    if r.dayOfWeek.Some? && r.dayOfWeek.value != "" && r.dayOfWeek.value != Unknown then r.dayOfWeek else None
  }

  /** A record lands in a day's bucket exactly when it carries that day's
      label. */
  lemma {:induction false} DayKeyOfLabel(r: SaleRecord, i: nat)
    requires i < 7
    ensures DayKey(r) == Some(DaysRu()[i]) <==> r.dayOfWeek == Some(DaysRu()[i])
  {
  }

  /** `DAYS_RU.map(d => ({ day: d, value: dayMap[d] }))` for the bucket map
      built with term `f`: the revenue series with `Revenue`, the
      transaction series with `One`. Position `i` carries the `i`-th label
      and the sum over the records of that day, and the series adds up to
      the sum over all records with a known day. */
  function DaySeries(rs: seq<SaleRecord>, f: SaleRecord -> real): (s: seq<Point>)
    ensures |s| == 7
    ensures forall i :: 0 <= i < 7 ==> s[i].key == DaysRu()[i]
    ensures forall i :: 0 <= i < 7 ==> s[i].value == SumBy(InBucket(rs, DayKey, DaysRu()[i]), f)
    ensures SumBy(s, Value) == SumBy(Bucketed(rs, DayKey, DaysRu()), f)
  {
    var m := BucketTotals(rs, DaysRu(), DayKey, f);
    assert forall i :: 0 <= i < 7 ==> m[DaysRu()[i]] == SumBy(InBucket(rs, DayKey, DaysRu()[i]), f) by {
      forall i | 0 <= i < 7 ensures m[DaysRu()[i]] == SumBy(InBucket(rs, DayKey, DaysRu()[i]), f) {
        BucketTotalsValue(rs, DaysRu(), DayKey, f, i);
      }
    }
    BucketSeriesSum(rs, DaysRu(), DaysRu(), DayKey, f);
    Series(DaysRu(), DaysRu(), m)
  }

  // ---------------------------------------------------------------------------
  // By hour
  // ---------------------------------------------------------------------------

  /** `r.hour !== undefined && r.hour >= 0 && r.hour < 24`.
      `Processor.HourSeriesAccount` says what the hour buckets then hold. */
  function HourKey(r: SaleRecord): (k: Option<int>)
    ensures k.Some? <==> r.hour.Some? && 0 <= r.hour.value < 24
    ensures k.Some? ==> k == r.hour
  {
    if r.hour.Some? && 0 <= r.hour.value < 24 then r.hour else None
  }

  /** The keys `0` to `23` of the hour map. */
  function HourKeys(): (ks: seq<int>)
    ensures |ks| == 24 && Distinct(ks)
    ensures forall i :: 0 <= i < 24 ==> ks[i] == i
  {
    seq(24, i => i)
  }

  /** `${i}:00`: the label that `parseInt` reads back as the hour itself, so
      different hours get different labels. */
  function HourLabel(i: nat): (s: string)
    ensures ParseInt(s) == Some(i as int)
    ensures |s| >= 4 && s[|s| - 3..] == ":00"
    ensures s[..|s| - 3] == NatToString(i)
  {
    IntNumeralRoundTrip(i, ":00");
    NatToString(i) + ":00"
  }

  function HourLabels(): (ls: seq<string>)
    ensures |ls| == 24
    ensures forall i :: 0 <= i < 24 ==> ls[i] == HourLabel(i)
  {
    seq(24, i requires 0 <= i < 24 => HourLabel(i))
  }

  /** `revenueByHour`: 24 points, hour `i` labelled `${i}:00` and carrying the
      revenue of the records of that hour; together they add up to the
      revenue of the records with an hour in range. */
  function HourSeries(rs: seq<SaleRecord>): (s: seq<Point>)
    ensures |s| == 24
    ensures forall i :: 0 <= i < 24 ==> s[i].key == HourLabel(i)
    ensures forall i :: 0 <= i < 24 ==> s[i].value == SumBy(InBucket(rs, HourKey, i), Revenue)
    ensures SumBy(s, Value) == SumBy(Bucketed(rs, HourKey, HourKeys()), Revenue)
  {
    HourBuckets(rs);
    Series(HourKeys(), HourLabels(), BucketTotals(rs, HourKeys(), HourKey, Revenue))
  }

  /** The series over the 24 hour keys: per-hour sums that together cover
      the records with an hour in range. */
  lemma {:induction false} HourBuckets(rs: seq<SaleRecord>)
    ensures var s := Series(HourKeys(), HourLabels(), BucketTotals(rs, HourKeys(), HourKey, Revenue));
            && (forall i :: 0 <= i < 24 ==> s[i].value == SumBy(InBucket(rs, HourKey, i), Revenue))
            && SumBy(s, Value) == SumBy(Bucketed(rs, HourKey, HourKeys()), Revenue)
  {
    var m := BucketTotals(rs, HourKeys(), HourKey, Revenue);
    forall i | 0 <= i < 24 ensures m[HourKeys()[i]] == SumBy(InBucket(rs, HourKey, i), Revenue) {
      BucketTotalsValue(rs, HourKeys(), HourKey, Revenue, i);
    }
    BucketSeriesSum(rs, HourKeys(), HourLabels(), HourKey, Revenue);
  }

  // ---------------------------------------------------------------------------
  // By product
  // ---------------------------------------------------------------------------

  function ProductKey(r: SaleRecord): Option<string> {
    Some(r.product)
  }

  function Products(rs: seq<SaleRecord>): (ps: seq<string>)
    ensures |ps| == |rs|
  {
    seq(|rs|, i requires 0 <= i < |rs| => rs[i].product)
  }

  /** The keys of the product maps in creation order: each product name once,
      where `(prodMap[r.product] || 0) + ...` first meets it. */
  function ProductNames(rs: seq<SaleRecord>): (names: seq<string>)
    ensures Distinct(names)
    ensures forall x :: x in names <==> x in Products(rs)
    ensures forall i, j :: 0 <= i < j < |names| ==> FirstIndex(Products(rs), names[i]) < FirstIndex(Products(rs), names[j])
  {
    FirstOccurrences(Products(rs))
  }

  /** Folding one more record into the product maps adds its product as the
      last key exactly when the maps do not hold it yet. */
  lemma {:induction false} ProductNamesSnoc(rs: seq<SaleRecord>, r: SaleRecord)
    ensures ProductNames(rs + [r]) == ProductNames(rs) + (if r.product in ProductNames(rs) then [] else [r.product])
  {
    assert Products(rs + [r]) == Products(rs) + [r.product];
    FirstOccurrencesSnoc(Products(rs), r.product);
  }

  /** The entries of a product map, in creation order, after the records
      were folded in with term `f`: one entry per distinct product, holding
      the sum over that product's records, and all of them together the sum
      over every record. */
  function ProductEntries(rs: seq<SaleRecord>, f: SaleRecord -> real): (e: seq<Point>)
    ensures |e| == |ProductNames(rs)|
    ensures forall i :: 0 <= i < |e| ==> e[i].key == ProductNames(rs)[i]
    ensures forall i :: 0 <= i < |e| ==> e[i].value == SumBy(InBucket(rs, ProductKey, e[i].key), f)
    ensures SumBy(e, Value) == SumBy(rs, f)
  {
    var names := ProductNames(rs);
    ProductSeries(rs, names, f);
    Series(names, names, BucketTotals(rs, names, ProductKey, f))
  }

  /** The series over the product names: per-product sums that together
      cover every record. */
  lemma {:induction false} ProductSeries(rs: seq<SaleRecord>, names: seq<string>, f: SaleRecord -> real)
    requires names == ProductNames(rs)
    ensures var e := Series(names, names, BucketTotals(rs, names, ProductKey, f));
            && (forall i :: 0 <= i < |e| ==> e[i].value == SumBy(InBucket(rs, ProductKey, names[i]), f))
            && SumBy(e, Value) == SumBy(rs, f)
  {
    var m := BucketTotals(rs, names, ProductKey, f);
    forall i | 0 <= i < |names| ensures m[names[i]] == SumBy(InBucket(rs, ProductKey, names[i]), f) {
      BucketTotalsValue(rs, names, ProductKey, f, i);
    }
    BucketSeriesSum(rs, names, names, ProductKey, f);
    EveryProductBucketed(rs);
  }

  /** Every record's product is one of the names, so no record is skipped. */
  lemma {:induction false} EveryProductBucketed(rs: seq<SaleRecord>)
    ensures Bucketed(rs, ProductKey, ProductNames(rs)) == rs
  {
    var names := ProductNames(rs);
    forall i | 0 <= i < |rs| ensures KeyAmong(ProductKey, names)(rs[i]) {
      assert Products(rs)[i] == rs[i].product;
      assert rs[i].product in names;
      assert ProductKey(rs[i]) == Some(rs[i].product);
    }
    FilterAll(rs, KeyAmong(ProductKey, names));
  }

  /** There are as many entries as distinct product names. */
  lemma {:induction false} ProductEntriesCount(rs: seq<SaleRecord>, f: SaleRecord -> real)
    ensures |ProductEntries(rs, f)| == |set r | r in rs :: r.product|
  {
    var names := ProductNames(rs);
    DistinctCardinality(names);
    assert (set x | x in names) == (set r | r in rs :: r.product) by {
      forall x | x in names ensures x in set r | r in rs :: r.product {
        var i :| 0 <= i < |rs| && Products(rs)[i] == x;
        assert rs[i] in rs;
      }
      forall x | x in set r | r in rs :: r.product ensures x in names {
        var r :| r in rs && r.product == x;
        var i :| 0 <= i < |rs| && rs[i] == r;
        assert Products(rs)[i] == x;
      }
    }
  }

  // ---------------------------------------------------------------------------
  // Ranking
  // ---------------------------------------------------------------------------

  /** `Object.entries(map).sort((a, b) => b[1] - a[1])`: the entries listed
      in own-key order, then stably sorted by non-increasing value. */
  function Ranked(entries: seq<Point>): (r: seq<Point>)
    ensures |r| == |entries| && multiset(r) == multiset(entries)
    ensures SortedDesc(r, Value)
    ensures SumBy(r, Value) == SumBy(entries, Value)
  {
    OwnKeyOrderSum(entries, Label, Value);
    SortDescSum(OwnKeyOrder(entries, Label), Value, Value);
    SortDesc(OwnKeyOrder(entries, Label), Value)
  }

  /** Entries of equal value keep their own-key order. */
  lemma {:induction false} RankedStable(entries: seq<Point>, v: real)
    ensures WithKey(Ranked(entries), Value, v) == WithKey(OwnKeyOrder(entries, Label), Value, v)
  {
    SortDescStable(OwnKeyOrder(entries, Label), Value, v);
  }

  /** When no product name is an array index, ties stay in creation order. */
  lemma {:induction false} RankedTiesInCreationOrder(entries: seq<Point>, v: real)
    requires forall i :: 0 <= i < |entries| ==> !IsArrayIndex(entries[i].key)
    ensures WithKey(Ranked(entries), Value, v) == WithKey(entries, Value, v)
  {
    RankedStable(entries, v);
  }

  function Min(a: nat, b: nat): nat {
    if a < b then a else b
  }

  /** `.slice(0, n)` of the ranking: the `n` largest entries (all of them when
      there are fewer), largest first, each taken from the entries. */
  function Top(entries: seq<Point>, n: nat): (r: seq<Point>)
    ensures r == Ranked(entries)[..Min(n, |entries|)]
    ensures |r| == Min(n, |entries|)
    ensures SortedDesc(r, Value)
    ensures multiset(r) <= multiset(entries)
  {
    var ranked := Ranked(entries);
    var k := Min(n, |entries|);
    PrefixMultiset(ranked, k);
    SortedPrefix(ranked, Value, k);
    ranked[..k]
  }

  /** No entry left out of a top list is larger than an entry kept in it. */
  lemma {:induction false} TopKeepsLargest(entries: seq<Point>, n: nat, e: Point)
    requires e in entries && e !in Top(entries, n)
    ensures forall i :: 0 <= i < |Top(entries, n)| ==> e.value <= Top(entries, n)[i].value
  {
    var ranked := Ranked(entries);
    var k := Min(n, |entries|);
    var t := Top(entries, n);
    assert t == ranked[..k];
    assert e in ranked by {
      assert e in multiset(entries);
    }
    SortedPrefixLargest(ranked, Value, k, e);
    forall i | 0 <= i < |t| ensures e.value <= t[i].value {
      assert t[i] == ranked[i];
      assert Value(e) <= Value(ranked[i]);
    }
  }

  /** The name of the entry that collects everything past the seventh. */
  const OtherLabel: string := "Другое"

  /** Replacing the entries from position `k` on by one entry holding their
      sum keeps the total. */
  lemma {:induction false} FoldTailSum(s: seq<Point>, k: nat, key: string)
    requires k <= |s|
    ensures SumBy(s[..k] + [Point(key, SumBy(s[k..], Value))], Value) == SumBy(s, Value)
  {
    assert s == s[..k] + s[k..];
    SumByConcat(s[..k], s[k..], Value);
    SumBySnoc(s[..k], Point(key, SumBy(s[k..], Value)), Value);
  }

  /** The share chart: the first seven ranked entries, then, when there are
      more, one entry named `OtherLabel` that collects the rest. At most eight
      slices, and the slices add up to the whole. */
  function Share(entries: seq<Point>): (r: seq<Point>)
    ensures |entries| <= 7 ==> r == Ranked(entries)
    ensures |entries| > 7 ==> |r| == 8 && r[..7] == Ranked(entries)[..7]
    ensures |entries| > 7 ==> r[7] == Point(OtherLabel, SumBy(Ranked(entries)[7..], Value))
    ensures SumBy(r, Value) == SumBy(entries, Value)
  {
    var ranked := Ranked(entries);
    if |ranked| > 7 then
      FoldTailSum(ranked, 7, OtherLabel);
      ranked[..7] + [Point(OtherLabel, SumBy(ranked[7..], Value))]
    else
      ranked
  }

  // ---------------------------------------------------------------------------
  // The report
  // ---------------------------------------------------------------------------

  /** ReportData: the figures and series the dashboard displays. */
  datatype ReportData = ReportData(
    totalRevenue: real,
    totalTransactions: nat,
    avgCheck: real,
    totalItems: real,
    revenueByDay: seq<Point>,
    transactionsByDay: seq<Point>,
    revenueByHour: seq<Point>,
    topProductsByRevenue: seq<Point>,
    topProductsByQty: seq<Point>,
    productShare: seq<Point>,
    rawRecords: seq<SaleRecord>)

  /** The length of the two top lists. */
  const TopCount: nat := 10

  /** Everything after the filter: the aggregations over the kept records. */
  function Summarize(rs: seq<SaleRecord>): (rep: ReportData)
    ensures rep.rawRecords == rs
    ensures rep.totalTransactions == |rs|
    ensures rep.totalRevenue == SumBy(rs, Revenue)
    ensures rep.totalItems == SumBy(rs, Quantity)
    ensures rep.avgCheck == AvgCheck(rep.totalRevenue, rep.totalTransactions)
    ensures SumBy(rep.productShare, Value) == rep.totalRevenue
    ensures |rep.topProductsByRevenue| == Min(TopCount, |ProductNames(rs)|)
    ensures |rep.topProductsByQty| == Min(TopCount, |ProductNames(rs)|)
  {
    var totalRevenue := SumBy(rs, Revenue);
    var byRevenue := ProductEntries(rs, Revenue);
    var byQty := ProductEntries(rs, Quantity);
    ReportData(
      totalRevenue,
      |rs|,
      AvgCheck(totalRevenue, |rs|),
      SumBy(rs, Quantity),
      DaySeries(rs, Revenue),
      DaySeries(rs, One),
      HourSeries(rs),
      Top(byRevenue, TopCount),
      Top(byQty, TopCount),
      Share(byRevenue),
      rs)
  }
}

=== FILE: columns.dfy ===
/** The column resolver: which header of the first row plays each of the
    five roles the processor needs (date, hour, product, quantity,
    revenue), found by case-insensitive substring matching against a fixed
    list of English and Russian fragments per role. */
module Columns {
  import opened Wrappers
  import opened JsText

  const DateCandidates: seq<string> := ["date", "дата", "день"]
  const HourCandidates: seq<string> := ["hour", "час", "time", "время"]
  const ProductCandidates: seq<string> := ["product", "товар", "item", "name", "наимен"]
  const QtyCandidates: seq<string> := ["qty", "количество", "quantity", "кол"]
  const RevenueCandidates: seq<string> := ["revenue", "выруч", "сумм", "total", "стоимость", "итого"]

  /** `candidates.some(c => header.toLowerCase().includes(c.toLowerCase()))`:
      true exactly when the lower-cased header contains some lower-cased
      candidate. */
  function MatchesAny(header: string, candidates: seq<string>): (b: bool)
    ensures b <==> exists j :: 0 <= j < |candidates| && Includes(ToLower(header), ToLower(candidates[j]))
  {
    if candidates == [] then false
    else if Includes(ToLower(header), ToLower(candidates[0])) then true
    else
      var b := MatchesAny(header, candidates[1..]);
      assert b ==> exists j :: 0 <= j < |candidates| && Includes(ToLower(header), ToLower(candidates[j])) by {
        if b {
          var j :| 0 <= j < |candidates| - 1 && Includes(ToLower(header), ToLower(candidates[1..][j]));
          assert candidates[1..][j] == candidates[j + 1];
        }
      }
      b
  }

  /** `h => candidates.some(...)`: the header test of one role. */
  function Matches(candidates: seq<string>): string -> bool {
    h => MatchesAny(h, candidates)
  }

  /** `found` is the first header, in header order, that passes the test `p`,
      or none when no header passes it. */
  predicate FirstMatch(headers: seq<string>, p: string -> bool, found: Option<string>) {
    && (found.None? <==> forall i :: 0 <= i < |headers| ==> !p(headers[i]))
    && (found.Some? ==> exists i :: && 0 <= i < |headers|
                                    && headers[i] == found.value
                                    && p(headers[i])
                                    && forall j :: 0 <= j < i ==> !p(headers[j]))
  }

  /** `findColumn(headers, candidates)`. */
  function FindColumn(headers: seq<string>, candidates: seq<string>): (r: Option<string>)
    ensures FirstMatch(headers, Matches(candidates), r)
  {
    if headers == [] then None
    else if MatchesAny(headers[0], candidates) then Some(headers[0])
    else
      var r := FindColumn(headers[1..], candidates);
      FirstMatchSkip(headers, Matches(candidates), r);
      r
  }

  /** A first header that does not match leaves the first match of the rest
      the first match of all. */
  lemma {:induction false} FirstMatchSkip(headers: seq<string>, p: string -> bool, r: Option<string>)
    requires |headers| > 0 && !p(headers[0])
    requires FirstMatch(headers[1..], p, r)
    ensures FirstMatch(headers, p, r)
  {
    if r.Some? {
      var i :| && 0 <= i < |headers| - 1
               && headers[1..][i] == r.value
               && p(headers[1..][i])
               && forall j :: 0 <= j < i ==> !p(headers[1..][j]);
      forall j | 0 <= j < i + 1 ensures !p(headers[j]) {
        if j > 0 { assert headers[j] == headers[1..][j - 1]; }
      }
      assert headers[i + 1] == r.value;
    } else {
      forall i | 0 <= i < |headers| ensures !p(headers[i]) {
        if i > 0 { assert headers[i] == headers[1..][i - 1]; }
      }
    }
  }

  /** The header chosen for each role, or none. */
  datatype Resolution = Resolution(
    date: Option<string>,
    hour: Option<string>,
    product: Option<string>,
    qty: Option<string>,
    revenue: Option<string>)

  /** The five `findColumn` calls, each role resolved independently to the
      first header that matches one of its candidates. */
  function ResolveColumns(headers: seq<string>): (res: Resolution)
    ensures FirstMatch(headers, Matches(DateCandidates), res.date)
    ensures FirstMatch(headers, Matches(HourCandidates), res.hour)
    ensures FirstMatch(headers, Matches(ProductCandidates), res.product)
    ensures FirstMatch(headers, Matches(QtyCandidates), res.qty)
    ensures FirstMatch(headers, Matches(RevenueCandidates), res.revenue)
  {
    Resolution(
      FindColumn(headers, DateCandidates),
      FindColumn(headers, HourCandidates),
      FindColumn(headers, ProductCandidates),
      FindColumn(headers, QtyCandidates),
      FindColumn(headers, RevenueCandidates))
  }

  predicate NoEmptyCandidate(candidates: seq<string>) {
    forall j :: 0 <= j < |candidates| ==> candidates[j] != ""
  }

  /** A header found through non-empty candidates is itself non-empty, so
      the truthiness tests `!colRevenue`, `colDate && ...` and
      `colQty || 'qty'` only ever ask whether the role was resolved. */
  lemma {:induction false} FoundColumnNonEmpty(headers: seq<string>, candidates: seq<string>)
    requires NoEmptyCandidate(candidates)
    ensures FindColumn(headers, candidates).Some? ==> FindColumn(headers, candidates).value != ""
  {
    var r := FindColumn(headers, candidates);
    if r.Some? {
      var i :| 0 <= i < |headers| && headers[i] == r.value && MatchesAny(headers[i], candidates);
      var j :| 0 <= j < |candidates| && Includes(ToLower(headers[i]), ToLower(candidates[j]));
      var k :| OccursAt(ToLower(headers[i]), ToLower(candidates[j]), k);
    }
  }

  lemma {:induction false} CandidatesNonEmpty()
    ensures NoEmptyCandidate(DateCandidates) && NoEmptyCandidate(HourCandidates)
    ensures NoEmptyCandidate(ProductCandidates) && NoEmptyCandidate(QtyCandidates)
    ensures NoEmptyCandidate(RevenueCandidates)
  {
    forall j | 0 <= j < |RevenueCandidates| ensures RevenueCandidates[j] != "" {
      assert |RevenueCandidates[j]| > 0;
    }
  }

  /** Every role's candidate list is free of the empty fragment, so every
      resolved header is a non-empty string. */
  lemma {:induction false} ResolvedHeadersNonEmpty(headers: seq<string>)
    ensures var res := ResolveColumns(headers);
            && (res.date.Some? ==> res.date.value != "")
            && (res.hour.Some? ==> res.hour.value != "")
            && (res.product.Some? ==> res.product.value != "")
            && (res.qty.Some? ==> res.qty.value != "")
            && (res.revenue.Some? ==> res.revenue.value != "")
  {
    CandidatesNonEmpty();
    FoundColumnNonEmpty(headers, DateCandidates);
    FoundColumnNonEmpty(headers, HourCandidates);
    FoundColumnNonEmpty(headers, ProductCandidates);
    FoundColumnNonEmpty(headers, QtyCandidates);
    FoundColumnNonEmpty(headers, RevenueCandidates);
  }
}

=== FILE: constants.dfy ===
/** The weekday vocabulary of the report: the seven Russian abbreviations,
    Monday first, that label the day series, and the map from the English
    weekday names produced by date formatting to those labels. */
module Constants {

  /** The sentinel the normalizer stores when a row has no valid date. */
  const Unknown: string := "Unknown"

  /** The label the normalizer falls back to when a formatted weekday name is
      missing from `DaysEnMap`. */
  const FallbackDay: string := "Пн"

  /** DAYS_RU: seven distinct labels, Monday to Sunday, none of them the
      sentinel. */
  function DaysRu(): (days: seq<string>)
    ensures |days| == 7
    ensures forall i, j :: 0 <= i < j < |days| ==> days[i] != days[j]
    ensures Unknown !in days
    ensures FallbackDay == days[0]
    ensures forall i :: 0 <= i < |days| ==> days[i] != ""
  {
    ["Пн", "Вт", "Ср", "Чт", "Пт", "Сб", "Вс"]
  }

  /** The English weekday names that `toLocaleDateString('en-US', { weekday:
      'long' })` produces, indexed the way `getDay` numbers days (0 is
      Sunday). */
  function EnglishWeekdays(): (names: seq<string>)
    ensures |names| == 7
    ensures forall i, j :: 0 <= i < j < |names| ==> names[i] != names[j]
  {
    ["Sunday", "Monday", "Tuesday", "Wednesday", "Thursday", "Friday", "Saturday"]
  }

  /** The position in `DaysRu` (Monday first) of the day that `getDay`
      numbers `w` (Sunday first). */
  function MondayFirst(w: nat): (i: nat)
    requires w < 7
    ensures i < 7 && (i == 6 <==> w == 0)
  {
    if w == 0 then 6 else w - 1
  }

  /** The `getDay` number of the day at position `i` of `DaysRu`. */
  function SundayFirst(i: nat): (w: nat)
    requires i < 7
    ensures w < 7 && MondayFirst(w) == i
  {
    if i == 6 then 0 else i + 1
  }

  /** DAYS_EN_MAP: keyed by exactly the seven English weekday names, it
      sends each day's name to that day's label in `DaysRu`. */
  function DaysEnMap(): (m: map<string, string>)
    ensures forall w :: w in m <==> w in EnglishWeekdays()
    ensures forall w :: 0 <= w < 7 ==> m[EnglishWeekdays()[w]] == DaysRu()[MondayFirst(w)]
  {
    var m := map["Monday" := "Пн", "Tuesday" := "Вт", "Wednesday" := "Ср",
                 "Thursday" := "Чт", "Friday" := "Пт", "Saturday" := "Сб", "Sunday" := "Вс"];
    var names := EnglishWeekdays();
    var days := DaysRu();
    assert names == ["Sunday", "Monday", "Tuesday", "Wednesday", "Thursday", "Friday", "Saturday"];
    assert days == ["Пн", "Вт", "Ср", "Чт", "Пт", "Сб", "Вс"];
    forall w | 0 <= w < 7 ensures names[w] in m && m[names[w]] == days[MondayFirst(w)] {
      if w == 0 {} else if w == 1 {} else if w == 2 {} else if w == 3 {}
      else if w == 4 {} else if w == 5 {} else {}
    }
    m
  }

  /** Every image of DAYS_EN_MAP is a label of DAYS_RU, and every label is
      the image of its own day's name: Monday's for the first, Sunday's for
      the last. */
  lemma {:induction false} DaysEnMapOnto()
    ensures forall i :: 0 <= i < 7 ==> DaysEnMap()[EnglishWeekdays()[SundayFirst(i)]] == DaysRu()[i]
    ensures forall w :: w in DaysEnMap() ==> DaysEnMap()[w] in DaysRu()
  {
    var m := DaysEnMap();
    var names := EnglishWeekdays();
    forall a | a in m ensures m[a] in DaysRu() {
      assert a in names;
      var i :| 0 <= i < 7 && names[i] == a;
    }
  }

  /** No two weekday names share a label, so DAYS_EN_MAP is one-to-one. */
  lemma {:induction false} DaysEnMapInjective()
    ensures forall a, b :: a in DaysEnMap() && b in DaysEnMap() && a != b ==> DaysEnMap()[a] != DaysEnMap()[b]
  {
    var m := DaysEnMap();
    var names := EnglishWeekdays();
    var days := DaysRu();
    forall a, b | a in m && b in m && a != b ensures m[a] != m[b] {
      var i :| 0 <= i < 7 && names[i] == a;
      var j :| 0 <= j < 7 && names[j] == b;
      assert m[a] == days[MondayFirst(i)] && m[b] == days[MondayFirst(j)];
      assert MondayFirst(i) != MondayFirst(j) by {
        assert i != j;
      }
    }
  }
}

=== FILE: js_text.dfy ===
/** The pieces of JavaScript's string and number built-ins that the sales data
    processor relies on, written out as pure functions over `string`
    (a sequence of Unicode scalar values):
    `toLowerCase`, `includes`, `trim`, the `/[^\d.-]/g` stripping regex,
    `parseFloat` on the stripped alphabet, `parseInt` with no radix, the
    decimal form of a non-negative integer and the "array index" test that
    decides property-key order in `Object.keys` / `Object.entries`. */
module JsText {
  import opened Wrappers

  // ---------------------------------------------------------------------------
  // Characters
  // ---------------------------------------------------------------------------

  /** `\d` in a regular expression without the `u` flag: ASCII digits only. */
  predicate IsDigit(c: char) {
    '0' <= c <= '9'
  }

  /** The WhiteSpace and LineTerminator code points of ECMAScript, which
      `trim` and `parseInt` skip. */
  predicate IsJsWhitespace(c: char) {
    || c == '\t' || c == '\n' || c == '\U{000B}' || c == '\U{000C}' || c == '\r'
    || c == ' ' || c == '\U{00A0}' || c == '\U{1680}'
    || ('\U{2000}' <= c <= '\U{200A}')
    || c == '\U{2028}' || c == '\U{2029}' || c == '\U{202F}' || c == '\U{205F}'
    || c == '\U{3000}' || c == '\U{FEFF}'
  }

  /** Upper-case letters that `LowerChar` folds: Latin A-Z and the basic
      Cyrillic capitals U+0400..U+042F. */
  predicate IsFoldedUpper(c: char) {
    ('A' <= c <= 'Z') || ('\U{0400}' <= c <= '\U{042F}')
  }

  /** The lower-case partner of a folded capital: 32 code points up for
      Latin A-Z and Cyrillic А-Я, 80 up for Ѐ-Џ. */
  function LowerChar(c: char): (l: char)
    ensures !IsFoldedUpper(l)
    ensures !IsFoldedUpper(c) ==> l == c
    ensures ('A' <= c <= 'Z' || '\U{0410}' <= c <= '\U{042F}') ==> l as int == c as int + 32
    ensures '\U{0400}' <= c <= '\U{040F}' ==> l as int == c as int + 80
  {
    if 'A' <= c <= 'Z' then (c as int + 32) as char
    else if '\U{0410}' <= c <= '\U{042F}' then (c as int + 32) as char
    else if '\U{0400}' <= c <= '\U{040F}' then (c as int + 80) as char
    else c
  }

  // ---------------------------------------------------------------------------
  // toLowerCase and includes
  // ---------------------------------------------------------------------------

  predicate IsLowerCase(s: string) {
    forall i :: 0 <= i < |s| ==> !IsFoldedUpper(s[i])
  }

  /** `s.toLowerCase()`: a letter-for-letter fold that leaves no folded capital. */
  function ToLower(s: string): (r: string)
    ensures |r| == |s|
    ensures forall i :: 0 <= i < |s| ==> r[i] == LowerChar(s[i])
    ensures IsLowerCase(r)
    ensures IsLowerCase(s) ==> r == s
  {
    seq(|s|, i requires 0 <= i < |s| => LowerChar(s[i]))
  }

  lemma {:induction false} ToLowerIdempotent(s: string)
    ensures ToLower(ToLower(s)) == ToLower(s)
  {
  }

  /** `sub` occurs in `s` starting at position `i`. */
  predicate OccursAt(s: string, sub: string, i: int) {
    0 <= i && i + |sub| <= |s| && s[i..i + |sub|] == sub
  }

  /** `s.includes(sub)`. */
  function Includes(s: string, sub: string): (b: bool)
    ensures b <==> exists i :: OccursAt(s, sub, i)
    decreases |s|
  {
    if |sub| <= |s| && s[..|sub|] == sub then
      assert OccursAt(s, sub, 0);
      true
    else if |s| == 0 then
      false
    else
      var b := Includes(s[1..], sub);
      if b then
        var i :| OccursAt(s[1..], sub, i);
        assert OccursAt(s, sub, i + 1) by {
          assert s[i + 1..i + 1 + |sub|] == s[1..][i..i + |sub|];
        }
        true
      else
        assert forall i :: OccursAt(s, sub, i) ==> i >= 1 && OccursAt(s[1..], sub, i - 1) by {
          forall i | OccursAt(s, sub, i)
            ensures i >= 1 && OccursAt(s[1..], sub, i - 1)
          {
            assert i != 0;
            assert s[i..i + |sub|] == s[1..][i - 1..i - 1 + |sub|];
          }
        }
        false
  }

  // ---------------------------------------------------------------------------
  // trim
  // ---------------------------------------------------------------------------

  predicate AllWhitespace(s: string) {
    forall i :: 0 <= i < |s| ==> IsJsWhitespace(s[i])
  }

  /** The number of whitespace characters `s` starts with. */
  function LeadingSpaces(s: string): (k: nat)
    ensures k <= |s|
    ensures forall i :: 0 <= i < k ==> IsJsWhitespace(s[i])
    ensures k < |s| ==> !IsJsWhitespace(s[k])
  {
    if |s| > 0 && IsJsWhitespace(s[0]) then 1 + LeadingSpaces(s[1..]) else 0
  }

  /** The number of whitespace characters `s` ends with. */
  function TrailingSpaces(s: string): (k: nat)
    ensures k <= |s|
    ensures forall i :: |s| - k <= i < |s| ==> IsJsWhitespace(s[i])
    ensures k < |s| ==> !IsJsWhitespace(s[|s| - k - 1])
  {
    if |s| > 0 && IsJsWhitespace(s[|s| - 1]) then 1 + TrailingSpaces(s[..|s| - 1]) else 0
  }

  /** `trimStart`. */
  function TrimStart(s: string): string {
    s[LeadingSpaces(s)..]
  }

  /** `trimEnd`. */
  function TrimEnd(s: string): string {
    s[..|s| - TrailingSpaces(s)]
  }

  /** `s.trim()`: the middle of `s` between its leading and trailing
      whitespace; what is cut off on either side is whitespace only, and what
      remains neither starts nor ends with whitespace. */
  function Trim(s: string): (r: string)
    ensures exists i :: 0 <= i <= |s| - |r| && r == s[i..i + |r|]
                        && AllWhitespace(s[..i]) && AllWhitespace(s[i + |r|..])
    ensures |r| > 0 ==> !IsJsWhitespace(r[0]) && !IsJsWhitespace(r[|r| - 1])
  {
    var r := TrimEnd(TrimStart(s));
    ghost var i := LeadingSpaces(s);
    ghost var t := s[i..];
    assert r == s[i..i + |r|];
    assert AllWhitespace(s[..i]);
    assert AllWhitespace(s[i + |r|..]) by {
      assert s[i + |r|..] == t[|r|..];
    }
    r
  }

  /** Whitespace padding on either side does not change the trimmed text. */
  lemma {:induction false} TrimIgnoresPadding(left: string, s: string, right: string)
    requires AllWhitespace(left) && AllWhitespace(right)
    ensures Trim(left + s + right) == Trim(s)
  {
    var x := left + s + right;
    if AllWhitespace(s) {
      assert AllWhitespace(x);
      AllWhitespaceTrim(x);
      AllWhitespaceTrim(s);
    } else {
      TrimStartPadded(left, s, right);
      var t := TrimStart(s);
      assert !AllWhitespace(t) by {
        assert !IsJsWhitespace(t[0]);
      }
      TrimEndPadded(t, right);
    }
  }

  lemma {:induction false} TrimStartPadded(left: string, s: string, right: string)
    requires AllWhitespace(left) && !AllWhitespace(s)
    ensures TrimStart(left + s + right) == TrimStart(s) + right
  {
    var x := left + s + right;
    assert x == left + (s + right);
    LeadingPadding(left, s + right);
    LeadingAppend(s, right);
    var l := LeadingSpaces(s);
    assert x[|left| + l..] == s[l..] + right;
  }

  lemma {:induction false} TrimEndPadded(t: string, right: string)
    requires AllWhitespace(right) && !AllWhitespace(t)
    ensures TrimEnd(t + right) == TrimEnd(t)
  {
    TrailingPadding(t, right);
    assert (t + right)[..|t + right| - TrailingSpaces(t + right)] == t[..|t| - TrailingSpaces(t)];
  }

  lemma {:induction false} LeadingPadding(left: string, x: string)
    requires AllWhitespace(left)
    ensures LeadingSpaces(left + x) == |left| + LeadingSpaces(x)
    decreases |left|
  {
    if left != [] {
      assert (left + x)[1..] == left[1..] + x;
      LeadingPadding(left[1..], x);
    } else {
      assert left + x == x;
    }
  }

  lemma {:induction false} LeadingAppend(x: string, right: string)
    requires !AllWhitespace(x)
    ensures LeadingSpaces(x + right) == LeadingSpaces(x)
    decreases |x|
  {
    if IsJsWhitespace(x[0]) {
      assert (x + right)[1..] == x[1..] + right;
      assert !AllWhitespace(x[1..]) by {
        var k :| 0 <= k < |x| && !IsJsWhitespace(x[k]);
        assert x[1..][k - 1] == x[k];
      }
      LeadingAppend(x[1..], right);
    }
  }

  lemma {:induction false} TrailingPadding(x: string, right: string)
    requires AllWhitespace(right)
    requires !AllWhitespace(x)
    ensures TrailingSpaces(x + right) == |right| + TrailingSpaces(x)
    decreases |right|
  {
    if right != [] {
      var n := |right| - 1;
      assert (x + right)[..|x + right| - 1] == x + right[..n];
      TrailingPadding(x, right[..n]);
    } else {
      assert x + right == x;
    }
  }

  lemma {:induction false} AllWhitespaceTrim(s: string)
    requires AllWhitespace(s)
    ensures Trim(s) == []
  {
    assert LeadingSpaces(s) == |s|;
  }

  // ---------------------------------------------------------------------------
  // The /[^\d.-]/g stripping of numeric cells
  // ---------------------------------------------------------------------------

  /** The characters the source's regex keeps: digits, `.` and `-`. */
  predicate IsNumericChar(c: char) {
    IsDigit(c) || c == '.' || c == '-'
  }

  predicate NumericOnly(s: string) {
    forall i :: 0 <= i < |s| ==> IsNumericChar(s[i])
  }

  predicate NoNumericChar(s: string) {
    forall i :: 0 <= i < |s| ==> !IsNumericChar(s[i])
  }

  /** `s.replace(/[^\d.-]/g, '')`: only the kept characters remain, none of
      them is lost, and a string already over the kept alphabet is unchanged. */
  function StripNonNumeric(s: string): (r: string)
    ensures NumericOnly(r)
    ensures |r| <= |s|
    ensures NumericOnly(s) ==> r == s
    ensures NoNumericChar(s) ==> r == []
  {
    if s == [] then []
    else (if IsNumericChar(s[0]) then [s[0]] else []) + StripNonNumeric(s[1..])
  }

  /** Stripping works character by character, so it distributes over
      concatenation. */
  lemma {:induction false} StripDistributes(a: string, b: string)
    ensures StripNonNumeric(a + b) == StripNonNumeric(a) + StripNonNumeric(b)
    decreases |a|
  {
    if a != [] {
      assert (a + b)[1..] == a[1..] + b;
      StripDistributes(a[1..], b);
    } else {
      assert a + b == b;
    }
  }

  /** One dropped character between two runs of kept ones disappears. */
  lemma {:induction false} StripDropsOne(a: string, c: char, b: string)
    requires NumericOnly(a) && NumericOnly(b) && !IsNumericChar(c)
    ensures StripNonNumeric(a + [c] + b) == a + b
  {
    StripDistributes(a + [c], b);
    StripDistributes(a, [c]);
  }

  // ---------------------------------------------------------------------------
  // Digits and decimal numerals
  // ---------------------------------------------------------------------------

  /** The value of `c` as a digit in radix up to 16, or -1. */
  function DigitValue(c: char): int {
    if '0' <= c <= '9' then c as int - '0' as int
    else if 'a' <= c <= 'f' then c as int - 'a' as int + 10
    else if 'A' <= c <= 'F' then c as int - 'A' as int + 10
    else -1
  }

  predicate IsRadixDigit(c: char, radix: nat) {
    0 <= DigitValue(c) < radix
  }

  predicate AllRadixDigits(s: string, radix: nat) {
    forall i :: 0 <= i < |s| ==> IsRadixDigit(s[i], radix)
  }

  /** The longest prefix of `s` made of radix digits. */
  function LeadingDigits(s: string, radix: nat): (p: string)
    ensures |p| <= |s| && p == s[..|p|]
    ensures AllRadixDigits(p, radix)
    ensures |p| < |s| ==> !IsRadixDigit(s[|p|], radix)
  {
    if |s| > 0 && IsRadixDigit(s[0], radix) then [s[0]] + LeadingDigits(s[1..], radix)
    else []
  }

  /** The number a digit string denotes, read most significant digit first. */
  function DigitsValue(s: string, radix: nat): nat
    requires AllRadixDigits(s, radix)
  {
    if s == [] then 0
    else DigitsValue(s[..|s| - 1], radix) * radix + DigitValue(s[|s| - 1])
  }

  function Pow10(k: nat): (p: nat)
    ensures p >= 1
  {
    if k == 0 then 1 else 10 * Pow10(k - 1)
  }

  function DigitChar(d: nat): (c: char)
    requires d < 10
    ensures IsDigit(c) && DigitValue(c) == d
  {
    ('0' as int + d) as char
  }

  /** The shortest decimal numeral of `n`, as `${n}` writes it: at least one
      digit, no leading zero, and denoting `n`. */
  function NatToString(n: nat): (s: string)
    ensures |s| > 0 && AllRadixDigits(s, 10)
    ensures forall i :: 0 <= i < |s| ==> IsDigit(s[i])
    ensures DigitsValue(s, 10) == n
    ensures s[0] == '0' ==> n == 0 && |s| == 1
  {
    if n < 10 then
      [DigitChar(n)]
    else
      var p := NatToString(n / 10);
      var s := p + [DigitChar(n % 10)];
      assert s[..|s| - 1] == p;
      assert s[0] == p[0];
      s
  }

  // ---------------------------------------------------------------------------
  // parseFloat and parseInt
  // ---------------------------------------------------------------------------

  /** `parseFloat(s)` for a string over the stripped alphabet `[0-9.-]`: the
      longest prefix of the form `-? digits (. digits?)?` or `-? . digits`
      is read as an exact decimal; `None` stands for `NaN` (no digit before
      the first character that cannot continue the numeral). Whitespace,
      `+`, exponents and `Infinity`, which the full grammar also accepts,
      cannot survive the stripping. */
  function ParseStrippedFloat(s: string): (r: Option<real>)
    requires NumericOnly(s)
    ensures s == [] ==> r == None
    ensures (forall i :: 0 <= i < |s| ==> !IsDigit(s[i])) ==> r == None
    ensures |s| > 0 && IsDigit(s[0]) ==> r.Some?
    ensures r.Some? && r.value < 0.0 ==> s[0] == '-'
    ensures |s| > 0 && s[0] == '-' ==>
              r == (if |s| > 1 && s[1] == '-' then None else Negated(ParseStrippedFloat(s[1..])))
    ensures |s| > 0 && s[0] == '.' ==>
              r == (var d := LeadingDigits(s[1..], 10); if d == [] then None else Some(Scaled(DigitsValue(d, 10), |d|)))
    decreases |s|
  {
    if |s| > 0 && s[0] == '-' then Negated(ParseMagnitude(s[1..])) else ParseMagnitude(s)
  }

  /** The unsigned numeral `digits (. digits?)?` or `. digits` at the start
      of `s`; `NaN` when no digit comes before the first character that
      cannot continue it. */
  function ParseMagnitude(s: string): (r: Option<real>)
    requires NumericOnly(s)
    ensures r.Some? ==> r.value >= 0.0
    ensures |s| > 0 && s[0] == '-' ==> r == None
  {
    var whole := LeadingDigits(s, 10);
    var rest := s[|whole|..];
    var frac := if |rest| > 0 && rest[0] == '.' then LeadingDigits(rest[1..], 10) else [];
    if |whole| + |frac| == 0 then None else Some(DecimalValue(whole, frac))
  }

  /** The negation of a parsed number; `NaN` stays `NaN`. */
  function Negated(v: Option<real>): Option<real> {
    if v.Some? then Some(-v.value) else None
  }

  /** The value of the decimal numeral `whole.frac`: never negative, and the
      integer `whole` itself when there are no fraction digits. */
  function DecimalValue(whole: string, frac: string): (v: real)
    requires AllRadixDigits(whole, 10) && AllRadixDigits(frac, 10)
    ensures v >= 0.0
    ensures frac == [] ==> v == DigitsValue(whole, 10) as real
    ensures v >= DigitsValue(whole, 10) as real
  {
    if frac == [] then DigitsValue(whole, 10) as real
    else DigitsValue(whole, 10) as real + Scaled(DigitsValue(frac, 10), |frac|)
  }

  /** `x / 10^k`. */
  function Scaled(x: nat, k: nat): (v: real)
    ensures v >= 0.0
    ensures k == 0 ==> v == x as real
  {
    x as real / Pow10(k) as real
  }

  /** `parseFloat(String(cell).replace(/[^\d.-]/g, ''))`. */
  function ParseNumericText(s: string): Option<real> {
    ParseStrippedFloat(StripNonNumeric(s))
  }

  /** The negation of a parsed integer; `NaN` stays `NaN`. */
  function NegatedInt(v: Option<int>): Option<int> {
    if v.Some? then Some(-v.value) else None
  }

  /** `parseInt(s)` with no radix argument: skip leading whitespace, read an
      optional sign, switch to radix 16 after a `0x`/`0X` prefix, and read the
      longest run of digits; `None` stands for `NaN` when that run is empty. */
  function ParseInt(s: string): (r: Option<int>)
    ensures AllWhitespace(s) ==> r == None
    ensures |s| > 0 && '1' <= s[0] <= '9' ==> r.Some?
    ensures r.Some? && r.value < 0 ==> |TrimStart(s)| > 0 && TrimStart(s)[0] == '-'
    ensures r.Some? ==> var u := Unsigned(TrimStart(s)); |u| > 0 && IsDigit(u[0])
    ensures var t := TrimStart(s);
            |t| > 0 && (t[0] == '-' || t[0] == '+') ==>
              r == (if |t| > 1 && !IsJsWhitespace(t[1]) && t[1] != '-' && t[1] != '+'
                    then (if t[0] == '-' then NegatedInt(ParseInt(t[1..])) else ParseInt(t[1..]))
                    else None)
    ensures var t := TrimStart(s);
            |t| >= 2 && t[0] == '0' && (t[1] == 'x' || t[1] == 'X') ==>
              r == (var z := LeadingDigits(t[2..], 16); if z == [] then None else Some(DigitsValue(z, 16) as int))
    decreases |s|
  {
    var t := TrimStart(s);
    SignedTailTrimmed(t);
    ParseSigned(t)
  }

  /** An optional sign, then the digits. */
  function ParseSigned(t: string): (r: Option<int>)
    ensures r.Some? && r.value < 0 ==> |t| > 0 && t[0] == '-'
    ensures r.Some? ==> var u := Unsigned(t); |u| > 0 && IsDigit(u[0])
  {
    if |t| > 0 && t[0] == '-' then NegatedInt(ParseUnsigned(t[1..]))
    else if |t| > 0 && t[0] == '+' then ParseUnsigned(t[1..])
    else ParseUnsigned(t)
  }

  /** The text after an optional leading sign. */
  function Unsigned(t: string): (u: string)
    ensures |u| <= |t| && u == t[|t| - |u|..]
  {
    if |t| > 0 && (t[0] == '-' || t[0] == '+') then t[1..] else t
  }

  /** The digits after the sign: hexadecimal after a `0x`/`0X` prefix,
      decimal otherwise; `NaN` when no digit follows. */
  function ParseUnsigned(u: string): (r: Option<int>)
    ensures r.Some? ==> r.value >= 0
    ensures |u| > 0 && (IsJsWhitespace(u[0]) || u[0] == '-' || u[0] == '+') ==> r == None
    ensures r.Some? ==> |u| > 0 && IsDigit(u[0])
  {
    var hex := |u| >= 2 && u[0] == '0' && (u[1] == 'x' || u[1] == 'X');
    var radix := if hex then 16 else 10;
    var z := LeadingDigits(if hex then u[2..] else u, radix);
    if z == [] then None else Some(DigitsValue(z, radix))
  }

  /** `parseInt` skips leading whitespace: the text and its `trimStart`
      parse alike. */
  lemma {:induction false} ParseIntTrims(s: string)
    ensures ParseInt(s) == ParseInt(TrimStart(s))
  {
    var t := TrimStart(s);
    TrimStartIdempotent(s);
    ParseIntSigned(s);
    ParseIntSigned(t);
  }

  /** `parseInt` reads the sign and digits of the trimmed text. */
  lemma {:induction false} ParseIntSigned(s: string)
    ensures ParseInt(s) == ParseSigned(TrimStart(s))
  {
  }

  lemma {:induction false} TrimStartIdempotent(s: string)
    ensures TrimStart(TrimStart(s)) == TrimStart(s)
  {
    var t := TrimStart(s);
    if |t| > 0 {
      NotWhitespaceStart(t);
    }
  }

  /** After a sign, text that does not go on with whitespace has nothing
      for `trimStart` to cut. */
  lemma {:induction false} SignedTailTrimmed(t: string)
    ensures |t| > 1 && !IsJsWhitespace(t[1]) ==> TrimStart(t[1..]) == t[1..]
  {
    if |t| > 1 && !IsJsWhitespace(t[1]) {
      NotWhitespaceStart(t[1..]);
    }
  }

  /** `parseInt` of text that starts with a decimal digit and no `0x`
      prefix reads the leading decimal digits. */
  lemma {:induction false} ParseIntDecimal(s: string)
    requires |s| > 0 && IsDigit(s[0])
    requires |s| >= 2 && s[0] == '0' ==> s[1] != 'x' && s[1] != 'X'
    ensures ParseInt(s) == Some(DigitsValue(LeadingDigits(s, 10), 10))
  {
    NotWhitespaceStart(s);
    assert s[0] != '-' && s[0] != '+';
    assert IsRadixDigit(s[0], 10);
    assert LeadingDigits(s, 10) != [];
  }

  /** `parseFloat` of stripped text that starts with a decimal digit and has
      no `.` after its leading digits reads those digits. */
  lemma {:induction false} ParseFloatWhole(s: string)
    requires NumericOnly(s) && |s| > 0 && IsDigit(s[0])
    requires |LeadingDigits(s, 10)| == |s| || s[|LeadingDigits(s, 10)|] != '.'
    ensures ParseStrippedFloat(s) == Some(DigitsValue(LeadingDigits(s, 10), 10) as real)
  {
    var whole := LeadingDigits(s, 10);
    assert s[0] != '-';
    assert IsRadixDigit(s[0], 10);
    assert whole != [];
    assert s[|whole|..] == [] || s[|whole|..][0] != '.';
  }

  /** `parseFloat` of stripped text that starts with a digit and has a `.`
      right after its leading digits reads both digit runs. */
  lemma {:induction false} ParseFloatPoint(s: string, k: nat)
    requires NumericOnly(s) && |s| > 0 && IsDigit(s[0])
    requires k == |LeadingDigits(s, 10)| && k < |s| && s[k] == '.'
    ensures ParseStrippedFloat(s) == Some(DecimalValue(LeadingDigits(s, 10), LeadingDigits(s[k + 1..], 10)))
  {
    assert s[0] != '-';
    assert s[k..][1..] == s[k + 1..];
  }

  /** A numeral, a point and a run of digits read as the whole part plus the
      digits scaled down by their count: "12.05" reads as 12 + 5/100. */
  lemma {:induction false} FractionRoundTrip(a: nat, d: string)
    requires AllRadixDigits(d, 10)
    ensures ParseStrippedFloat(NatToString(a) + "." + d)
         == Some(a as real + DigitsValue(d, 10) as real / Pow10(|d|) as real)
  {
    FractionParse(a, d);
    DecimalValueOfNumeral(a, d);
    assert Scaled(DigitsValue(d, 10), |d|) == DigitsValue(d, 10) as real / Pow10(|d|) as real;
  }

  lemma {:induction false} FractionParse(a: nat, d: string)
    requires AllRadixDigits(d, 10)
    ensures ParseStrippedFloat(NatToString(a) + "." + d) == Some(DecimalValue(NatToString(a), d))
  {
    var n := NatToString(a);
    var s := n + "." + d;
    assert s == n + ("." + d);
    assert NumericOnly(s) by {
      forall i | 0 <= i < |s| ensures IsNumericChar(s[i]) {
        if i > |n| { assert s[i] == d[i - |n| - 1]; }
      }
    }
    LeadingDigitsOfNumeral(n, "." + d, 10);
    assert s[0] == n[0];
    assert s[|n| + 1..] == d + [];
    LeadingDigitsOfNumeral(d, [], 10);
    ParseFloatPoint(s, |n|);
  }

  lemma {:induction false} DecimalValueOfNumeral(a: nat, d: string)
    requires AllRadixDigits(d, 10)
    ensures DecimalValue(NatToString(a), d) == a as real + Scaled(DigitsValue(d, 10), |d|)
  {
  }

  /** A numeral followed by anything that is not a digit parses back to the
      number it denotes, under both `parseFloat` and `parseInt`. */
  lemma {:induction false} NumeralRoundTrip(n: nat, tail: string)
    requires tail == [] || (!IsDigit(tail[0]) && tail[0] != '.')
    requires NumericOnly(tail)
    ensures ParseStrippedFloat(NatToString(n) + tail) == Some(n as real)
    ensures ParseInt(NatToString(n) + tail) == Some(n)
  {
    var d := NatToString(n);
    var s := d + tail;
    assert NumericOnly(s) by {
      forall i | 0 <= i < |s| ensures IsNumericChar(s[i]) {
        if i >= |d| { assert s[i] == tail[i - |d|]; }
      }
    }
    LeadingDigitsOfNumeral(d, tail, 10);
    assert s[0] == d[0];
    assert s[|d|..] == tail;
    ParseFloatWhole(s);
    assert tail == [] || tail[0] == '-';
    IntNumeralRoundTrip(n, tail);
  }

  /** `parseInt` reads a numeral back from any text that follows it with a
      character that neither continues the digits nor turns a leading `0`
      into a hexadecimal prefix. */
  lemma {:induction false} IntNumeralRoundTrip(n: nat, tail: string)
    requires tail == [] || (!IsDigit(tail[0]) && tail[0] != 'x' && tail[0] != 'X')
    ensures ParseInt(NatToString(n) + tail) == Some(n)
  {
    var d := NatToString(n);
    var s := d + tail;
    LeadingDigitsOfNumeral(d, tail, 10);
    assert s[0] == d[0];
    if |s| >= 2 && s[0] == '0' {
      assert s[1] == tail[0];
    }
    ParseIntDecimal(s);
  }

  /** Leading-digit extraction stops exactly at the end of a digit run. */
  lemma {:induction false} LeadingDigitsOfNumeral(d: string, tail: string, radix: nat)
    requires AllRadixDigits(d, radix)
    requires tail == [] || !IsRadixDigit(tail[0], radix)
    ensures LeadingDigits(d + tail, radix) == d
    decreases |d|
  {
    if d == [] {
      assert d + tail == tail;
    } else {
      assert (d + tail)[1..] == d[1..] + tail;
      LeadingDigitsOfNumeral(d[1..], tail, radix);
    }
  }

  /** A word that starts with a lower-case Latin letter and holds no numeric
      character strips to nothing and is `NaN` to `parseInt`. */
  lemma {:induction false} LetterWordIsNaN(s: string)
    requires |s| > 0 && 'a' <= s[0] <= 'z' && NoNumericChar(s)
    ensures StripNonNumeric(s) == [] && ParseInt(s) == None
  {
    NotWhitespaceStart(s);
  }

  lemma {:induction false} NotWhitespaceStart(s: string)
    requires |s| > 0 && !IsJsWhitespace(s[0])
    ensures TrimStart(s) == s
  {
  }

  /** A negative sign before a numeral is read by both parsers. */
  lemma {:induction false} NegativeNumeralRoundTrip(n: nat)
    ensures ParseStrippedFloat("-" + NatToString(n)) == Some(-(n as real))
    ensures ParseInt("-" + NatToString(n)) == Some(-(n as int))
  {
    var d := NatToString(n);
    var s := "-" + d;
    assert s[0] == '-' && s[1..] == d;
    LeadingDigitsOfNumeral(d, [], 10);
    assert d + [] == d;
    assert NumericOnly(s) by {
      forall i | 0 <= i < |s| ensures IsNumericChar(s[i]) {
        if i > 0 { assert s[i] == d[i - 1]; }
      }
    }
    assert ParseStrippedFloat(s) == Some(-(n as real)) by {
      assert d[|d|..] == [];
    }
    assert ParseInt(s) == Some(-(n as int)) by {
      NotWhitespaceStart(s);
      assert |d| >= 2 ==> d[0] != '0';
    }
  }

  // ---------------------------------------------------------------------------
  // Property-key order of ordinary objects
  // ---------------------------------------------------------------------------

  /** The largest array index: 2^32 - 2. */
  const MaxArrayIndex: nat := 4294967294

  /** A key that ECMAScript treats as an array index: the canonical numeral
      of an integer in [0, 2^32 - 2]. Such keys are listed first, in
      ascending numeric order, by `Object.keys` and `Object.entries`. */
  predicate IsArrayIndex(s: string) {
    && |s| > 0
    && AllRadixDigits(s, 10)
    && (s[0] != '0' || |s| == 1)
    && DigitsValue(s, 10) <= MaxArrayIndex
  }

  /** The index an array-index key denotes; 0 for any other key. */
  function ArrayIndexValue(s: string): (v: nat)
    ensures IsArrayIndex(s) ==> v <= MaxArrayIndex
  {
    if IsArrayIndex(s) then DigitsValue(s, 10) else 0
  }

  /** The numeral of an index is an array-index key, and reads back as it. */
  lemma {:induction false} IndexNumeral(n: nat)
    requires n <= MaxArrayIndex
    ensures IsArrayIndex(NatToString(n))
    ensures ArrayIndexValue(NatToString(n)) == n
  {
  }
}

=== FILE: processor.dfy ===
/** `processSalesData`: resolve the columns of the first row, normalize every
    row, keep the records with positive revenue and aggregate them into the
    report, or fail before producing any report when there are no rows or a
    mandatory column is missing. */
module Processor {
  import opened Wrappers
  import opened Constants
  import opened Sequences
  import opened Sorting
  import opened RawData
  import opened Columns
  import opened Records
  import opened Aggregate

  /** The three errors the processor throws. */
  datatype ProcessError = NoData | RevenueColumnNotFound | ProductColumnNotFound

  /** The message each error is thrown with; no two errors share one. */
  function Message(e: ProcessError): (msg: string)
    ensures e == NoData <==> msg == "No data found"
    ensures e == RevenueColumnNotFound <==> msg == "Revenue column not found (Выручка/Сумма)"
    ensures e == ProductColumnNotFound <==> msg == "Product column not found (Товар/Наименование)"
  {
    match e
    case NoData => "No data found"
    case RevenueColumnNotFound => "Revenue column not found (Выручка/Сумма)"
    case ProductColumnNotFound => "Product column not found (Товар/Наименование)"
  }

  /** The filter `r => r.revenue > 0`. */
  function HasRevenue(r: SaleRecord): bool {
    r.revenue > 0.0
  }

  /** The filter selecting records that carry the sentinel day. */
  function UnknownDay(r: SaleRecord): bool {
    r.dayOfWeek == Some(Unknown)
  }

  /** The `data.map` callback under fixed columns and date parser. */
  function NormalizeRow(cols: ColumnMap, parseDate: Cell -> Option<DateInfo>): Row -> SaleRecord {
    row => Normalize(row, cols, parseDate)
  }

  /** `data.map(row => ...)`: one normalized record per row, in row order. */
  function NormalizeAll(data: seq<Row>, cols: ColumnMap, parseDate: Cell -> Option<DateInfo>): (rs: seq<SaleRecord>)
    ensures |rs| == |data|
    ensures forall i :: 0 <= i < |rs| ==> rs[i] == Normalize(data[i], cols, parseDate) && Normalized(rs[i])
  {
    Map(data, NormalizeRow(cols, parseDate))
  }

  /** The headers resolved from the first row, when there is one. */
  function FirstRowColumns(data: seq<Row>): Resolution
    requires data != []
  {
    ResolveColumns(Keys(data[0]))
  }

  /** processSalesData: no rows fail first; then a missing revenue column,
      whether or not the product column is also missing; then a missing
      product column. Otherwise the report summarizes the kept records of
      the rows under the resolved columns. */
  function ProcessSalesData(data: seq<Row>, parseDate: Cell -> Option<DateInfo>): (r: Result<ReportData, ProcessError>)
    ensures r == Failure(NoData) <==> data == []
    ensures r == Failure(RevenueColumnNotFound) <==> data != [] && FirstRowColumns(data).revenue.None?
    ensures r == Failure(ProductColumnNotFound)
        <==> data != [] && FirstRowColumns(data).revenue.Some? && FirstRowColumns(data).product.None?
    ensures r.Success? ==> && FirstRowColumns(data).revenue.Some? && FirstRowColumns(data).product.Some?
                           && r.value == Summarize(Kept(data, ColumnsOf(FirstRowColumns(data)), parseDate))
  {
    if |data| == 0 then Failure(NoData)
    else
      var res := FirstRowColumns(data);
      ResolvedHeadersNonEmpty(Keys(data[0]));
      if !Named(res.revenue) then Failure(RevenueColumnNotFound)
      else if !Named(res.product) then Failure(ProductColumnNotFound)
      else Success(Summarize(Kept(data, ColumnsOf(res), parseDate)))
  }

  /** The column map the normalizer uses once both mandatory roles resolved. */
  function ColumnsOf(res: Resolution): ColumnMap
    requires res.product.Some? && res.revenue.Some?
  {
    ColumnMap(res.date, res.hour, res.product.value, res.qty, res.revenue.value)
  }

  /** `data.map(...).filter(r => r.revenue > 0)`: normalized records with
      positive revenue, at most one per row, in row order. */
  function Kept(data: seq<Row>, cols: ColumnMap, parseDate: Cell -> Option<DateInfo>): (rs: seq<SaleRecord>)
    ensures rs == Filter(NormalizeAll(data, cols, parseDate), HasRevenue)
    ensures |rs| <= |data|
    ensures forall i :: 0 <= i < |rs| ==> rs[i].revenue > 0.0 && Normalized(rs[i])
  {
    var all := NormalizeAll(data, cols, parseDate);
    FilterKeeps(all, HasRevenue, Normalized);
    Filter(all, HasRevenue)
  }

  /** Every row whose normalized record has positive revenue is kept, and
      every kept record is the normalization of some row. */
  lemma {:induction false} KeptRecords(data: seq<Row>, cols: ColumnMap, parseDate: Cell -> Option<DateInfo>)
    ensures forall i :: 0 <= i < |data| && Normalize(data[i], cols, parseDate).revenue > 0.0 ==>
              Normalize(data[i], cols, parseDate) in Kept(data, cols, parseDate)
    ensures forall r :: r in Kept(data, cols, parseDate) ==>
              exists i :: 0 <= i < |data| && r == Normalize(data[i], cols, parseDate)
  {
    KeptComplete(data, cols, parseDate);
    KeptSound(data, cols, parseDate);
  }

  /** No row with positive revenue is dropped. */
  lemma {:induction false} KeptComplete(data: seq<Row>, cols: ColumnMap, parseDate: Cell -> Option<DateInfo>)
    ensures forall i :: 0 <= i < |data| && Normalize(data[i], cols, parseDate).revenue > 0.0 ==>
              Normalize(data[i], cols, parseDate) in Kept(data, cols, parseDate)
  {
    var all := NormalizeAll(data, cols, parseDate);
    var kept := Kept(data, cols, parseDate);
    forall i | 0 <= i < |data| && Normalize(data[i], cols, parseDate).revenue > 0.0
      ensures Normalize(data[i], cols, parseDate) in kept
    {
      assert all[i] == Normalize(data[i], cols, parseDate);
      assert HasRevenue(all[i]);
    }
  }

  /** Nothing is kept that no row produced. */
  lemma {:induction false} KeptSound(data: seq<Row>, cols: ColumnMap, parseDate: Cell -> Option<DateInfo>)
    ensures forall r :: r in Kept(data, cols, parseDate) ==>
              exists i :: 0 <= i < |data| && r == Normalize(data[i], cols, parseDate)
  {
    var all := NormalizeAll(data, cols, parseDate);
    var kept := Kept(data, cols, parseDate);
    forall r | r in kept
      ensures exists i :: 0 <= i < |data| && r == Normalize(data[i], cols, parseDate)
    {
      var k :| 0 <= k < |kept| && kept[k] == r;
      assert r in all;
      var j :| 0 <= j < |all| && all[j] == r;
      assert all[j] == Normalize(data[j], cols, parseDate);
    }
  }

  /** Rows are kept in order: one more row adds its record at the end when
      its revenue is positive, and nothing otherwise. */
  lemma {:induction false} KeptSnoc(data: seq<Row>, row: Row, cols: ColumnMap, parseDate: Cell -> Option<DateInfo>)
    ensures Kept([], cols, parseDate) == []
    ensures var r := Normalize(row, cols, parseDate);
            Kept(data + [row], cols, parseDate) == Kept(data, cols, parseDate) + (if r.revenue > 0.0 then [r] else [])
  {
    MapSnoc(data, row, NormalizeRow(cols, parseDate));
    FilterSnoc(NormalizeAll(data, cols, parseDate), Normalize(row, cols, parseDate), HasRevenue);
  }

  /** Records as the processor keeps them: normalized, with positive revenue. */
  predicate KeptShape(rs: seq<SaleRecord>) {
    forall i :: 0 <= i < |rs| ==> rs[i].revenue > 0.0 && Normalized(rs[i])
  }

  /** The totals: revenue, items and transactions over the kept records, the
      average check of those, and a positive revenue exactly when some record
      was kept. */
  lemma {:induction false} Totals(rs: seq<SaleRecord>)
    requires KeptShape(rs)
    ensures var rep := Summarize(rs);
            && rep.totalRevenue == SumBy(rs, Revenue)
            && rep.totalItems == SumBy(rs, Quantity)
            && rep.totalTransactions == |rs|
            && rep.avgCheck == AvgCheck(rep.totalRevenue, rep.totalTransactions)
            && (rep.totalTransactions > 0 <==> rep.totalRevenue > 0.0)
  {
    KeptRevenuePositive(rs);
  }

  lemma {:induction false} KeptRevenuePositive(rs: seq<SaleRecord>)
    requires KeptShape(rs)
    ensures |rs| > 0 <==> SumBy(rs, Revenue) > 0.0
  {
    assert forall i :: 0 <= i < |rs| ==> Revenue(rs[i]) > 0.0;
    SumByPositive(rs, Revenue);
  }

  /** Every kept record falls into a day bucket unless it carries the
      sentinel day. */
  lemma {:induction false} DayBucketsMissOnlyUnknown(rs: seq<SaleRecord>)
    requires forall i :: 0 <= i < |rs| ==> Normalized(rs[i])
    ensures Unbucketed(rs, DayKey, DaysRu()) == Filter(rs, UnknownDay)
  {
    forall i | 0 <= i < |rs| ensures KeyOutside(DayKey, DaysRu())(rs[i]) <==> UnknownDay(rs[i]) {
      var r := rs[i];
      var d := r.dayOfWeek.value;
      if d == Unknown {
        assert DayKey(r) == None;
      } else {
        assert d in DaysRu();
        assert d != "";
        assert DayKey(r) == Some(d);
      }
    }
    FilterCongruent(rs, KeyOutside(DayKey, DaysRu()), UnknownDay);
  }

  /** The day series: seven points in `DAYS_RU` order, each holding the
      revenue (resp. the number) of the kept records of that day; together
      they fall short of the total revenue (resp. the transaction count)
      by exactly the records whose day is unknown. */
  lemma {:induction false} DaySeriesAccount(rs: seq<SaleRecord>)
    requires KeptShape(rs)
    ensures var rep := Summarize(rs);
            && |rep.revenueByDay| == 7 && |rep.transactionsByDay| == 7
            && (forall i :: 0 <= i < 7 ==>
                  && rep.revenueByDay[i].key == DaysRu()[i]
                  && rep.transactionsByDay[i].key == DaysRu()[i]
                  && rep.revenueByDay[i].value == SumBy(InBucket(rs, DayKey, DaysRu()[i]), Revenue)
                  && rep.transactionsByDay[i].value == |InBucket(rs, DayKey, DaysRu()[i])| as real)
            && SumBy(rep.revenueByDay, Value) == rep.totalRevenue - SumBy(Filter(rs, UnknownDay), Revenue)
            && SumBy(rep.transactionsByDay, Value) == (rep.totalTransactions - |Filter(rs, UnknownDay)|) as real
  {
    DayCounts(rs);
    DayShortfall(rs, Revenue);
    DayShortfall(rs, One);
    SumOfOnes(rs);
    SumOfOnes(Filter(rs, UnknownDay));
  }

  /** A day series falls short of the whole sum by exactly the records whose
      day is unknown. */
  lemma {:induction false} DayShortfall(rs: seq<SaleRecord>, f: SaleRecord -> real)
    requires forall i :: 0 <= i < |rs| ==> Normalized(rs[i])
    ensures SumBy(DaySeries(rs, f), Value) == SumBy(rs, f) - SumBy(Filter(rs, UnknownDay), f)
  {
    DayBucketsMissOnlyUnknown(rs);
    BucketPartition(rs, DayKey, DaysRu(), f);
  }

  /** Counting one per record of a day gives the number of that day's
      records. */
  lemma {:induction false} DayCounts(rs: seq<SaleRecord>)
    ensures forall i :: 0 <= i < 7 ==>
              SumBy(InBucket(rs, DayKey, DaysRu()[i]), One) == |InBucket(rs, DayKey, DaysRu()[i])| as real
  {
    forall i | 0 <= i < 7
      ensures SumBy(InBucket(rs, DayKey, DaysRu()[i]), One) == |InBucket(rs, DayKey, DaysRu()[i])| as real
    {
      SumOfOnes(InBucket(rs, DayKey, DaysRu()[i]));
    }
  }

  /** The hour series: 24 points labelled `0:00` to `23:00` in order, hour
      `i` holding the revenue of the kept records of that hour; records with
      no hour or one outside the day count nowhere, so the series never adds
      up to more than the total revenue. */
  lemma {:induction false} HourSeriesAccount(rs: seq<SaleRecord>)
    requires KeptShape(rs)
    ensures var rep := Summarize(rs);
            && |rep.revenueByHour| == 24
            && (forall i :: 0 <= i < 24 ==>
                  && rep.revenueByHour[i].key == HourLabel(i)
                  && rep.revenueByHour[i].value == SumBy(InBucket(rs, HourKey, i), Revenue))
            && SumBy(rep.revenueByHour, Value) <= rep.totalRevenue
  {
    BucketPartition(rs, HourKey, HourKeys(), Revenue);
    var skipped := Unbucketed(rs, HourKey, HourKeys());
    forall i | 0 <= i < |skipped| ensures Revenue(skipped[i]) > 0.0 {
      assert skipped[i] in rs;
    }
    SumByPositive(skipped, Revenue);
  }

  /** The product lists: each top list is the start of the stable ranking
      of the per-product totals, as many entries as there are distinct
      products up to ten, largest first; the share chart is the share of the
      per-product revenue totals (the first seven ranked entries, then the
      remainder) and adds up to the total revenue. */
  lemma {:induction false} ProductListsAccount(rs: seq<SaleRecord>)
    ensures var rep := Summarize(rs);
            var distinct := |set r | r in rs :: r.product|;
            && rep.topProductsByRevenue <= Ranked(ProductEntries(rs, Revenue))
            && rep.topProductsByQty <= Ranked(ProductEntries(rs, Quantity))
            && |rep.topProductsByRevenue| == Min(TopCount, distinct)
            && |rep.topProductsByQty| == Min(TopCount, distinct)
            && multiset(rep.topProductsByRevenue) <= multiset(ProductEntries(rs, Revenue))
            && multiset(rep.topProductsByQty) <= multiset(ProductEntries(rs, Quantity))
            && SortedDesc(rep.topProductsByRevenue, Value)
            && SortedDesc(rep.topProductsByQty, Value)
            && rep.productShare == Share(ProductEntries(rs, Revenue))
            && SumBy(rep.productShare, Value) == rep.totalRevenue
            && |rep.productShare| == (if distinct > 7 then 8 else distinct)
  {
    ProductEntriesCount(rs, Revenue);
    ProductEntriesCount(rs, Quantity);
  }
}

=== FILE: raw_data.dfy ===
/** The decoded rows the processor receives: one JavaScript object per sales
    line, mapping header names to scalar cells, as the CSV decoder (with
    dynamic typing) or the spreadsheet decoder produce them. */
module RawData {
  import opened Wrappers
  import opened JsText
  import opened Sequences
  import opened Sorting

  /** A cell value: absent (`undefined`), `null`, a boolean, a string, or a
      number. A number carries the text `String(n)` gives for it, since the
      shortest round-trip formatting of binary floating point is not part of
      this model; the decoder that builds the cell is trusted to make `shown`
      the printed form of `value`. */
  datatype Cell =
    | Missing
    | Null
    | Bool(b: bool)
    | Text(s: string)
    | Number(value: real, shown: string)

  /** `String(cell)`. */
  function ToJsString(c: Cell): string {
    match c
    case Missing => "undefined"
    case Null => "null"
    case Bool(b) => if b then "true" else "false"
    case Text(s) => s
    case Number(_, shown) => shown
  }

  /** The words printed for `undefined`, `null` and the booleans hold no
      digit, `.` or `-`, and `parseInt` finds no number in them. */
  lemma {:induction false} WordCellIsNaN(c: Cell)
    requires c.Missing? || c.Null? || c.Bool?
    ensures StripNonNumeric(ToJsString(c)) == [] && ParseInt(ToJsString(c)) == None
  {
    LetterWordIsNaN(ToJsString(c));
  }

  /** JavaScript truthiness of a cell: `undefined`, `null`, `false`, `""`
      and `0` are falsy. `Records.FalsyHourFallsThrough` shows what a falsy
      hour cell does to the record. */
  function Truthy(c: Cell): (b: bool)
    ensures c.Missing? || c.Null? ==> !b
    ensures c.Bool? ==> (b <==> ToJsString(c) == "true")
    ensures c.Text? ==> (b <==> ToJsString(c) != "")
    ensures c.Number? ==> (b <==> c.value != 0.0)
  {
    match c
    case Missing => false
    case Null => false
    case Bool(b) => b
    case Text(s) => s != ""
    case Number(v, _) => v != 0.0
  }

  datatype Field = Field(key: string, cell: Cell)

  /** A decoded row: its fields in creation order. The decoder builds a
      JavaScript object, so the keys are distinct; where they would not be,
      lookups read the first field with the key. */
  datatype Row = Row(fields: seq<Field>)

  function FieldKey(f: Field): string {
    f.key
  }

  /** `i` is the first position whose field has key `key`. */
  predicate FirstWithKey(fields: seq<Field>, key: string, i: int) {
    && 0 <= i < |fields|
    && fields[i].key == key
    && forall j :: 0 <= j < i ==> fields[j].key != key
  }

  /** `row[key]`: the cell stored under `key`, or `undefined`. */
  function Get(row: Row, key: string): (c: Cell)
    ensures c != Missing ==> exists i :: 0 <= i < |row.fields| && row.fields[i] == Field(key, c)
    ensures (forall i :: 0 <= i < |row.fields| ==> row.fields[i].key != key) ==> c == Missing
    ensures forall i :: FirstWithKey(row.fields, key, i) ==> c == row.fields[i].cell
    decreases |row.fields|
  {
    if row.fields == [] then Missing
    else if row.fields[0].key == key then row.fields[0].cell
    else
      var c := Get(Row(row.fields[1..]), key);
      assert c != Missing ==> exists i :: 0 <= i < |row.fields| && row.fields[i] == Field(key, c) by {
        if c != Missing {
          var i :| 0 <= i < |row.fields| - 1 && row.fields[1..][i] == Field(key, c);
          assert row.fields[i + 1] == Field(key, c);
        }
      }
      assert forall i :: FirstWithKey(row.fields, key, i) ==> c == row.fields[i].cell by {
        forall i | FirstWithKey(row.fields, key, i) ensures c == row.fields[i].cell {
          var tail := row.fields[1..];
          assert tail[i - 1] == row.fields[i];
          forall j | 0 <= j < i - 1 ensures tail[j].key != key {
            assert tail[j] == row.fields[j + 1];
          }
          assert FirstWithKey(tail, key, i - 1);
        }
      }
      c
  }

  // ---------------------------------------------------------------------------
  // Own-property key order
  // ---------------------------------------------------------------------------

  function HasIndexKey<T>(name: T -> string): T -> bool {
    x => IsArrayIndex(name(x))
  }

  function HasOtherKey<T>(name: T -> string): T -> bool {
    x => !IsArrayIndex(name(x))
  }

  /** The elements whose key is an array index, in order. */
  function IndexKeyed<T>(s: seq<T>, name: T -> string): (r: seq<T>)
    ensures |r| <= |s|
    ensures forall i :: 0 <= i < |r| ==> IsArrayIndex(name(r[i]))
  {
    if s == [] then []
    else (if IsArrayIndex(name(s[0])) then [s[0]] else []) + IndexKeyed(s[1..], name)
  }

  /** The elements whose key is not an array index, in order. */
  function OtherKeyed<T>(s: seq<T>, name: T -> string): (r: seq<T>)
    ensures |r| <= |s|
    ensures forall i :: 0 <= i < |r| ==> !IsArrayIndex(name(r[i]))
  {
    if s == [] then []
    else (if IsArrayIndex(name(s[0])) then [] else [s[0]]) + OtherKeyed(s[1..], name)
  }

  /** The two halves are the filters of the elements by whether their key is
      an array index. */
  lemma {:induction false} KeyedAreFilters<T>(s: seq<T>, name: T -> string)
    ensures IndexKeyed(s, name) == Filter(s, HasIndexKey(name))
    ensures OtherKeyed(s, name) == Filter(s, HasOtherKey(name))
  {
    if s != [] {
      KeyedAreFilters(s[1..], name);
    }
  }

  /** Sort key that puts smaller indices first under a non-increasing sort. */
  function IndexRank<T>(name: T -> string): T -> real {
    x => -(ArrayIndexValue(name(x)) as real)
  }

  /** The order in which `Object.keys` and `Object.entries` list an ordinary
      object's properties, given in creation order: keys that are array
      indices first, in ascending numeric order, then every other key in
      creation order. It only rearranges, and it changes nothing when no key
      is an array index. */
  function OwnKeyOrder<T>(s: seq<T>, name: T -> string): (r: seq<T>)
    ensures |r| == |s| && multiset(r) == multiset(s)
    ensures r[|IndexKeyed(s, name)|..] == OtherKeyed(s, name)
    ensures (forall i :: 0 <= i < |s| ==> !IsArrayIndex(name(s[i]))) ==> r == s
  {
    OwnKeyOrderShape(s, name);
    SortDesc(IndexKeyed(s, name), IndexRank(name)) + OtherKeyed(s, name)
  }

  lemma {:induction false} OwnKeyOrderShape<T>(s: seq<T>, name: T -> string)
    ensures var r := SortDesc(IndexKeyed(s, name), IndexRank(name)) + OtherKeyed(s, name);
            && |r| == |s| && multiset(r) == multiset(s)
            && r[|IndexKeyed(s, name)|..] == OtherKeyed(s, name)
            && ((forall i :: 0 <= i < |s| ==> !IsArrayIndex(name(s[i]))) ==> r == s)
  {
    var front := SortDesc(IndexKeyed(s, name), IndexRank(name));
    var r := front + OtherKeyed(s, name);
    KeyedPartition(s, name);
    assert multiset(r) == multiset(front) + multiset(OtherKeyed(s, name));
    assert r[|front|..] == OtherKeyed(s, name);
    if forall i :: 0 <= i < |s| ==> !IsArrayIndex(name(s[i])) {
      NoIndexKeys(s, name);
    }
  }

  /** In own-key order every array-index key comes before every other key,
      and the array indices ascend. */
  lemma {:induction false} OwnKeyOrderIndicesFirst<T>(s: seq<T>, name: T -> string)
    ensures var r := OwnKeyOrder(s, name);
            forall i, j :: 0 <= i < j < |r| && IsArrayIndex(name(r[j])) ==>
              IsArrayIndex(name(r[i])) && ArrayIndexValue(name(r[i])) <= ArrayIndexValue(name(r[j]))
  {
    var front := SortDesc(IndexKeyed(s, name), IndexRank(name));
    SortKeepsProperty(IndexKeyed(s, name), IndexRank(name), HasIndexKey(name));
    IndicesBeforeOthers(front, OtherKeyed(s, name), name);
  }

  lemma {:induction false} IndicesBeforeOthers<T>(front: seq<T>, back: seq<T>, name: T -> string)
    requires forall i :: 0 <= i < |front| ==> IsArrayIndex(name(front[i]))
    requires forall i :: 0 <= i < |back| ==> !IsArrayIndex(name(back[i]))
    requires SortedDesc(front, IndexRank(name))
    ensures var r := front + back;
            forall i, j :: 0 <= i < j < |r| && IsArrayIndex(name(r[j])) ==>
              IsArrayIndex(name(r[i])) && ArrayIndexValue(name(r[i])) <= ArrayIndexValue(name(r[j]))
  {
    var r := front + back;
    forall i, j | 0 <= i < j < |r| && IsArrayIndex(name(r[j]))
      ensures IsArrayIndex(name(r[i])) && ArrayIndexValue(name(r[i])) <= ArrayIndexValue(name(r[j]))
    {
      assert j < |front|;
      assert r[i] == front[i] && r[j] == front[j];
      SortedDescAt(front, IndexRank(name), i, j);
    }
  }

  lemma {:induction false} KeyedPartition<T>(s: seq<T>, name: T -> string)
    ensures multiset(IndexKeyed(s, name)) + multiset(OtherKeyed(s, name)) == multiset(s)
    ensures |IndexKeyed(s, name)| + |OtherKeyed(s, name)| == |s|
  {
    if s != [] {
      KeyedPartition(s[1..], name);
      assert s == [s[0]] + s[1..];
    }
  }

  lemma {:induction false} NoIndexKeys<T>(s: seq<T>, name: T -> string)
    requires forall i :: 0 <= i < |s| ==> !IsArrayIndex(name(s[i]))
    ensures IndexKeyed(s, name) == [] && OtherKeyed(s, name) == s
  {
    if s != [] {
      NoIndexKeys(s[1..], name);
    }
  }

  /** Listing in own-key order leaves every sum over the elements unchanged. */
  lemma {:induction false} OwnKeyOrderSum<T>(s: seq<T>, name: T -> string, f: T -> real)
    ensures SumBy(OwnKeyOrder(s, name), f) == SumBy(s, f)
  {
    var front := SortDesc(IndexKeyed(s, name), IndexRank(name));
    SumByConcat(front, OtherKeyed(s, name), f);
    SortDescSum(IndexKeyed(s, name), IndexRank(name), f);
    KeyedSum(s, name, f);
  }

  lemma {:induction false} KeyedSum<T>(s: seq<T>, name: T -> string, f: T -> real)
    ensures SumBy(IndexKeyed(s, name), f) + SumBy(OtherKeyed(s, name), f) == SumBy(s, f)
  {
    if s != [] {
      KeyedSum(s[1..], name, f);
      if IsArrayIndex(name(s[0])) {
        SumByConcat([s[0]], IndexKeyed(s[1..], name), f);
        SumByConcat([], OtherKeyed(s[1..], name), f);
        assert [] + OtherKeyed(s[1..], name) == OtherKeyed(s[1..], name);
      } else {
        SumByConcat([s[0]], OtherKeyed(s[1..], name), f);
        assert [] + IndexKeyed(s[1..], name) == IndexKeyed(s[1..], name);
      }
    }
  }

  /** `Object.keys(row)`: the field keys, in creation order unless some
      key is an array index. */
  function Keys(row: Row): (ks: seq<string>)
    ensures |ks| == |row.fields|
    ensures forall i :: 0 <= i < |ks| ==> ks[i] == OwnKeyOrder(row.fields, FieldKey)[i].key
    ensures (forall i :: 0 <= i < |row.fields| ==> !IsArrayIndex(row.fields[i].key)) ==>
              forall i :: 0 <= i < |ks| ==> ks[i] == row.fields[i].key
  {
    var ordered := OwnKeyOrder(row.fields, FieldKey);
    seq(|ordered|, i requires 0 <= i < |ordered| => ordered[i].key)
  }
}

=== FILE: records.dfy ===
/** The record normalizer: turns one decoded row into a `SaleRecord` using
    the resolved columns, never failing; unreadable cells fall back to
    defaults instead. */
module Records {
  import opened Wrappers
  import opened JsText
  import opened Constants
  import opened RawData

  type Weekday = w: nat | w < 7
  type HourOfDay = h: nat | h < 24

  /** What a valid `new Date(cell)` reports through `getDay()` (0 is Sunday)
      and `getHours()`. Date parsing depends on the host's locale and time
      zone, so the model receives it as a function `parseDate` that answers
      `None` for an invalid date. */
  datatype DateInfo = DateInfo(weekday: Weekday, hour: HourOfDay)

  /** SaleRecord: one normalized sales line. `hour` is `None` both when no
      hour was found and when `parseInt` produced `NaN`. */
  datatype SaleRecord = SaleRecord(
    product: string,
    revenue: real,
    qty: real,
    date: Option<DateInfo>,
    hour: Option<int>,
    dayOfWeek: Option<string>)

  /** The headers resolved for the five roles once the two mandatory ones
      are known to exist. */
  datatype ColumnMap = ColumnMap(
    date: Option<string>,
    hour: Option<string>,
    product: string,
    qty: Option<string>,
    revenue: string)

  /** JavaScript truthiness of a resolved column name. */
  predicate Named(col: Option<string>) {
    col.Some? && col.value != ""
  }

  /** `parseFloat(String(cell).replace(/[^\d.-]/g, '')) || 0`: the number
      read from the cell's digits, dots and minus signs, or 0 when that reads
      as `NaN` or as zero. */
  function RevenueOf(cell: Cell): (v: real)
    ensures v != 0.0 <==> ParseNumericText(ToJsString(cell)).Some? && ParseNumericText(ToJsString(cell)).value != 0.0
    ensures v != 0.0 ==> ParseNumericText(ToJsString(cell)) == Some(v)
  {
    match ParseNumericText(ToJsString(cell))
    case Some(x) => if x != 0.0 then x else 0.0
    case None => 0.0
  }

  /** `parseFloat(String(cell).replace(/[^\d.-]/g, '')) || 1`: the number
      read from the cell, or 1 when that reads as `NaN` or as zero; never 0. */
  function QuantityOf(cell: Cell): (q: real)
    ensures q != 0.0
    ensures q != 1.0 ==> ParseNumericText(ToJsString(cell)) == Some(q)
    ensures (ParseNumericText(ToJsString(cell)).Some? && ParseNumericText(ToJsString(cell)).value != 0.0)
              ==> q == ParseNumericText(ToJsString(cell)).value
  {
    match ParseNumericText(ToJsString(cell))
    case Some(x) => if x != 0.0 then x else 1.0
    case None => 1.0
  }

  /** `row[colQty || 'qty']`: the key the quantity is read from. */
  function QtyKey(qty: Option<string>): string {
    if Named(qty) then qty.value else "qty"
  }

  /** `DAYS_EN_MAP[toLocaleDateString('en-US', { weekday: 'long' })] || "Пн"`
      for a valid date on weekday `w`: the label of that very day, so the
      `"Пн"` fallback is never taken. */
  function WeekdayLabel(w: Weekday): (day: string)
    ensures EnglishWeekdays()[w] in DaysEnMap()
    ensures day == DaysRu()[MondayFirst(w)]
    ensures day != Unknown
  {
    var en := EnglishWeekdays()[w];
    if en in DaysEnMap() then DaysEnMap()[en] else FallbackDay
  }

  /** The hour cell is consulted when the hour column is resolved and the
      row's cell there is truthy. */
  predicate UsesHourCell(row: Row, cols: ColumnMap) {
    Named(cols.hour) && Truthy(Get(row, cols.hour.value))
  }

  /** The date cell is handed to `new Date` when the date column is resolved
      and the row's cell there is truthy. */
  predicate UsesDateCell(row: Row, cols: ColumnMap) {
    Named(cols.date) && Truthy(Get(row, cols.date.value))
  }

  /** The invariants every normalized record satisfies: a day label that is
      either a label of the vocabulary or the sentinel, the sentinel exactly
      when there is no valid date, and a quantity that is never zero. */
  predicate Normalized(r: SaleRecord) {
    && r.dayOfWeek.Some?
    && (r.dayOfWeek.value == Unknown || r.dayOfWeek.value in DaysRu())
    && (r.dayOfWeek.value == Unknown <==> r.date.None?)
    && r.qty != 0.0
  }

  /** The body of the `data.map` callback for one row. */
  function Normalize(row: Row, cols: ColumnMap, parseDate: Cell -> Option<DateInfo>): (r: SaleRecord)
    ensures Normalized(r)
    ensures r.revenue == RevenueOf(Get(row, cols.revenue))
    ensures r.qty == QuantityOf(Get(row, QtyKey(cols.qty)))
    ensures |r.product| > 0 ==> !IsJsWhitespace(r.product[0]) && !IsJsWhitespace(r.product[|r.product| - 1])
    ensures r.product == Trim(ToJsString(Get(row, cols.product)))
    // the date is parsed only from a truthy cell of a resolved date column
    ensures r.date.Some? ==> UsesDateCell(row, cols) && parseDate(Get(row, cols.date.value)) == r.date
    ensures UsesDateCell(row, cols) ==> r.date == parseDate(Get(row, cols.date.value))
    // the day label is that of the date's weekday, or the sentinel
    ensures r.date.Some? ==> r.dayOfWeek == Some(DaysRu()[MondayFirst(r.date.value.weekday)])
    ensures r.date.None? ==> r.dayOfWeek == Some(Unknown)
    // the hour comes from the hour cell, else from a valid date, else is absent
    ensures UsesHourCell(row, cols) ==> r.hour == ParseInt(ToJsString(Get(row, cols.hour.value)))
    ensures !UsesHourCell(row, cols) && r.date.Some? ==> r.hour == Some(r.date.value.hour as int)
    ensures !UsesHourCell(row, cols) && r.date.None? ==> r.hour.None?
  {
    var date := if UsesDateCell(row, cols) then parseDate(Get(row, cols.date.value)) else None;
    var hour :=
      if UsesHourCell(row, cols) then ParseInt(ToJsString(Get(row, cols.hour.value)))
      else if date.Some? then Some(date.value.hour as int)
      else None;
    var day := if date.Some? then WeekdayLabel(date.value.weekday) else Unknown;
    SaleRecord(
      Trim(ToJsString(Get(row, cols.product))),
      RevenueOf(Get(row, cols.revenue)),
      QuantityOf(Get(row, QtyKey(cols.qty))),
      date,
      hour,
      Some(day))
  }

  /** Currency signs, spaces and other decoration around the digits are
      dropped, so a cell reading like "₽ 1500 руб" yields revenue 1500. */
  lemma {:induction false} RevenueIgnoresDecoration(prefix: string, n: nat, suffix: string)
    requires NoNumericChar(prefix) && NoNumericChar(suffix)
    ensures RevenueOf(Text(prefix + NatToString(n) + suffix)) == n as real
  {
    var d := NatToString(n);
    StripDistributes(prefix + d, suffix);
    StripDistributes(prefix, d);
    assert StripNonNumeric(prefix + d + suffix) == d;
    RevenueOfNumeral(prefix + d + suffix, n);
  }

  /** A cell whose stripped text is exactly the numeral of `n` has revenue
      `n`, whatever decoration the stripping removed, also between the
      digits as in "1 500 ₽". */
  lemma {:induction false} RevenueOfNumeral(s: string, n: nat)
    requires StripNonNumeric(s) == NatToString(n)
    ensures RevenueOf(Text(s)) == n as real
  {
    NumeralRoundTrip(n, []);
    assert NatToString(n) + [] == NatToString(n);
    assert ParseNumericText(s) == Some(n as real);
  }

  /** A comma is not among the kept characters, so a decimal comma is lost:
      "500,50" reads as 50050. */
  lemma {:induction false} DecimalCommaIsDropped()
    ensures RevenueOf(Text("500,50")) == 50050.0
  {
    StripComma();
    Numeral50050();
    RevenueOfNumeral("500,50", 50050);
  }

  lemma {:induction false} StripComma()
    ensures StripNonNumeric("500,50") == "50050"
  {
    StripDropsOne("500", ',', "50");
    assert "500" + [','] + "50" == "500,50";
    assert "500" + "50" == "50050";
  }

  lemma {:induction false} Numeral50050()
    ensures NatToString(50050) == "50050"
  {
    assert NatToString(5) == "5";
    assert NatToString(50) == "50";
    assert NatToString(500) == "500";
    assert NatToString(5005) == "5005";
  }

  /** The `|| 1` default: an absent quantity cell, a cell reading as zero
      and a cell with no digits all count as one unit. */
  lemma {:induction false} QuantityDefaults(s: string)
    requires NoNumericChar(s)
    ensures QuantityOf(Missing) == 1.0
    ensures QuantityOf(Text(s)) == 1.0
    ensures QuantityOf(Text("0")) == 1.0
    ensures QuantityOf(Number(0.0, "0")) == 1.0
  {
    assert NoNumericChar("undefined");
    NumeralRoundTrip(0, []);
    assert NatToString(0) + [] == "0";
  }

  /** The hour cell must be truthy to be read: an absent, null, false,
      empty or zero cell falls through to the date, while the text "0" is
      truthy and read as hour 0. */
  lemma {:induction false} FalsyHourFallsThrough(row: Row, cols: ColumnMap, parseDate: Cell -> Option<DateInfo>)
    requires Named(cols.hour)
    requires !Truthy(Get(row, cols.hour.value))
    ensures Normalize(row, cols, parseDate).hour
         == (var d := Normalize(row, cols, parseDate).date; if d.Some? then Some(d.value.hour as int) else None)
  {
  }
}

=== FILE: sequences.dfy ===
/** Generic sequence folds used by the aggregations: a sum in the order of
    `Array.prototype.reduce`, and filtering. */
module Sequences {

  /** `s.reduce((acc, x) => acc + f(x), 0)`. Amounts are exact here, so the
      order in which the terms are added does not matter. */
  function SumBy<T>(s: seq<T>, f: T -> real): real {
    if s == [] then 0.0 else f(s[0]) + SumBy(s[1..], f)
  }

  /** The sum of a concatenation is the sum of the parts. */
  lemma {:induction false} SumByConcat<T>(a: seq<T>, b: seq<T>, f: T -> real)
    ensures SumBy(a + b, f) == SumBy(a, f) + SumBy(b, f)
    decreases |a|
  {
    if a == [] {
      assert a + b == b;
    } else {
      assert (a + b)[1..] == a[1..] + b;
      SumByConcat(a[1..], b, f);
    }
  }

  lemma {:induction false} SumBySnoc<T>(s: seq<T>, x: T, f: T -> real)
    ensures SumBy(s + [x], f) == SumBy(s, f) + f(x)
  {
    SumByConcat(s, [x], f);
  }

  /** `s.map(g)`. */
  function Map<A, B>(s: seq<A>, g: A -> B): (r: seq<B>)
    ensures |r| == |s|
    ensures forall i :: 0 <= i < |s| ==> r[i] == g(s[i])
  {
    seq(|s|, i requires 0 <= i < |s| => g(s[i]))
  }

  lemma {:induction false} MapSnoc<A, B>(s: seq<A>, x: A, g: A -> B)
    ensures Map(s + [x], g) == Map(s, g) + [g(x)]
  {
    var a, b := Map(s + [x], g), Map(s, g) + [g(x)];
    forall i | 0 <= i < |a| ensures a[i] == b[i] {
      if i < |s| { assert (s + [x])[i] == s[i]; }
    }
  }

  /** `s.filter(p)`: the elements satisfying `p`, in order. */
  function Filter<T>(s: seq<T>, p: T -> bool): (r: seq<T>)
    ensures |r| <= |s|
    ensures forall i :: 0 <= i < |r| ==> p(r[i])
    ensures forall i :: 0 <= i < |r| ==> r[i] in s
    ensures forall i :: 0 <= i < |s| && p(s[i]) ==> s[i] in r
  {
    if s == [] then []
    else (if p(s[0]) then [s[0]] else []) + Filter(s[1..], p)
  }

  lemma {:induction false} FilterSnoc<T>(s: seq<T>, x: T, p: T -> bool)
    ensures Filter(s + [x], p) == Filter(s, p) + (if p(x) then [x] else [])
  {
    FilterConcat(s, [x], p);
    assert [x][1..] == [];
  }

  /** When `q` is the negation of `p` on `s`, the two filters partition the
      sum over `s`. */
  lemma {:induction false} FilterSplitSum<T>(s: seq<T>, p: T -> bool, q: T -> bool, f: T -> real)
    requires forall i :: 0 <= i < |s| ==> (q(s[i]) <==> !p(s[i]))
    ensures SumBy(Filter(s, p), f) + SumBy(Filter(s, q), f) == SumBy(s, f)
  {
    if s != [] {
      FilterSplitSum(s[1..], p, q, f);
      if p(s[0]) {
        SumByConcat([s[0]], Filter(s[1..], p), f);
        assert [] + Filter(s[1..], q) == Filter(s[1..], q);
      } else {
        SumByConcat([s[0]], Filter(s[1..], q), f);
        assert [] + Filter(s[1..], p) == Filter(s[1..], p);
      }
    }
  }

  /** Filtering by a predicate every element satisfies changes nothing. */
  lemma {:induction false} FilterAll<T>(s: seq<T>, p: T -> bool)
    requires forall i :: 0 <= i < |s| ==> p(s[i])
    ensures Filter(s, p) == s
  {
    if s != [] {
      FilterAll(s[1..], p);
      assert s == [s[0]] + s[1..];
    }
  }

  /** A property every element has is kept by every element of a filter. */
  lemma {:induction false} FilterKeeps<T>(s: seq<T>, p: T -> bool, inv: T -> bool)
    requires forall i :: 0 <= i < |s| ==> inv(s[i])
    ensures forall i :: 0 <= i < |Filter(s, p)| ==> inv(Filter(s, p)[i])
  {
    if s != [] {
      FilterKeeps(s[1..], p, inv);
    }
  }

  /** Predicates that agree on every element filter alike. */
  lemma {:induction false} FilterCongruent<T>(s: seq<T>, p: T -> bool, q: T -> bool)
    requires forall i :: 0 <= i < |s| ==> (p(s[i]) <==> q(s[i]))
    ensures Filter(s, p) == Filter(s, q)
  {
    if s != [] {
      FilterCongruent(s[1..], p, q);
    }
  }

  /** A sum of positive terms is positive as soon as there is one. */
  lemma {:induction false} SumByPositive<T>(s: seq<T>, f: T -> real)
    requires forall i :: 0 <= i < |s| ==> f(s[i]) > 0.0
    ensures s != [] ==> SumBy(s, f) > 0.0
    ensures SumBy(s, f) >= 0.0
  {
    if s != [] {
      SumByPositive(s[1..], f);
    }
  }

  /** Sums agree when the summed terms agree position by position. */
  lemma {:induction false} SumByPointwise<T>(a: seq<T>, b: seq<T>, f: T -> real)
    requires |a| == |b|
    requires forall i :: 0 <= i < |a| ==> f(a[i]) == f(b[i])
    ensures SumBy(a, f) == SumBy(b, f)
  {
    if a != [] {
      SumByPointwise(a[1..], b[1..], f);
    }
  }

  /** Raising one term by `x` raises the sum by `x`. */
  lemma {:induction false} SumByBump<T>(a: seq<T>, b: seq<T>, f: T -> real, k: nat, x: real)
    requires |a| == |b| && k < |a|
    requires forall i :: 0 <= i < |a| && i != k ==> f(b[i]) == f(a[i])
    requires f(b[k]) == f(a[k]) + x
    ensures SumBy(b, f) == SumBy(a, f) + x
  {
    if k == 0 {
      SumByPointwise(a[1..], b[1..], f);
    } else {
      SumByBump(a[1..], b[1..], f, k - 1, x);
    }
  }

  /** A sum of zero terms is zero. */
  lemma {:induction false} SumByZero<T>(s: seq<T>, f: T -> real)
    requires forall i :: 0 <= i < |s| ==> f(s[i]) == 0.0
    ensures SumBy(s, f) == 0.0
  {
    if s != [] {
      SumByZero(s[1..], f);
    }
  }

  /** The position where `x` first occurs in `s`. */
  function FirstIndex(s: seq<string>, x: string): (i: nat)
    requires x in s
    ensures i < |s| && s[i] == x
    ensures forall j :: 0 <= j < i ==> s[j] != x
  {
    if s[0] == x then 0 else 1 + FirstIndex(s[1..], x)
  }

  /** Appending an element does not move the first occurrence of one already
      present. */
  lemma {:induction false} FirstIndexSnoc(s: seq<string>, y: string, x: string)
    requires x in s
    ensures FirstIndex(s + [y], x) == FirstIndex(s, x)
  {
    var i, k := FirstIndex(s, x), FirstIndex(s + [y], x);
    assert (s + [y])[i] == x;
    assert k <= i;
    assert s[k] == (s + [y])[k];
  }

  /** The elements of `s` in order of first occurrence, each once: distinct,
      the same elements as `s`, and listed by increasing first position. */
  function FirstOccurrences(s: seq<string>): (r: seq<string>)
    ensures forall i, j :: 0 <= i < j < |r| ==> r[i] != r[j]
    ensures forall x :: x in r <==> x in s
    ensures forall i, j :: 0 <= i < j < |r| ==> FirstIndex(s, r[i]) < FirstIndex(s, r[j])
  {
    if s == [] then []
    else
      var init, last := s[..|s| - 1], s[|s| - 1];
      var prefix := FirstOccurrences(init);
      assert s == init + [last];
      var r := if last in prefix then prefix else prefix + [last];
      assert forall i :: 0 <= i < |prefix| ==> FirstIndex(s, prefix[i]) == FirstIndex(init, prefix[i]) by {
        forall i | 0 <= i < |prefix| ensures FirstIndex(s, prefix[i]) == FirstIndex(init, prefix[i]) {
          FirstIndexSnoc(init, last, prefix[i]);
        }
      }
      assert last !in prefix ==> FirstIndex(s, last) == |init| by {
        if last !in prefix {
          assert forall j :: 0 <= j < |init| ==> init[j] != last;
        }
      }
      r
  }

  /** Appending a name adds it at the end exactly when it is new. */
  lemma {:induction false} FirstOccurrencesSnoc(s: seq<string>, x: string)
    ensures FirstOccurrences(s + [x]) == FirstOccurrences(s) + (if x in s then [] else [x])
  {
    assert (s + [x])[..|s|] == s;
  }

  /** Without repetitions a sequence has as many elements as its set. */
  lemma {:induction false} DistinctCardinality(s: seq<string>)
    requires forall i, j :: 0 <= i < j < |s| ==> s[i] != s[j]
    ensures |set x | x in s| == |s|
  {
    if s != [] {
      var t := s[1..];
      assert forall i, j :: 0 <= i < j < |t| ==> t[i] != t[j] by {
        forall i, j | 0 <= i < j < |t| ensures t[i] != t[j] {
          assert t[i] == s[i + 1] && t[j] == s[j + 1];
        }
      }
      DistinctCardinality(t);
      assert (set x | x in s) == (set x | x in t) + {s[0]};
      forall j | 0 <= j < |t| ensures t[j] != s[0] {
        assert t[j] == s[j + 1];
      }
    }
  }

  lemma {:induction false} FilterConcat<T>(a: seq<T>, b: seq<T>, p: T -> bool)
    ensures Filter(a + b, p) == Filter(a, p) + Filter(b, p)
    decreases |a|
  {
    if a == [] {
      assert a + b == b;
    } else {
      assert (a + b)[1..] == a[1..] + b;
      FilterConcat(a[1..], b, p);
    }
  }
}

=== FILE: sorting.dfy ===
/** A stable insertion sort into non-increasing order of a real-valued key,
    as `Array.prototype.sort((a, b) => key(b) - key(a))` behaves since
    ECMAScript 2019 made `sort` stable. */
module Sorting {
  import opened Sequences

  predicate SortedDesc<T>(s: seq<T>, key: T -> real) {
    forall i, j :: 0 <= i < j < |s| ==> key(s[i]) >= key(s[j])
  }

  lemma {:induction false} SortedDescAt<T>(s: seq<T>, key: T -> real, i: nat, j: nat)
    requires SortedDesc(s, key) && i < j < |s|
    ensures key(s[i]) >= key(s[j])
  {
  }

  /** The elements of `s` whose key is `v`, in order: stability means a sort
      leaves this subsequence unchanged for every `v`. */
  function WithKey<T>(s: seq<T>, key: T -> real, v: real): seq<T> {
    if s == [] then []
    else (if key(s[0]) == v then [s[0]] else []) + WithKey(s[1..], key, v)
  }

  /** Places `x` before the first element whose key is not larger than its
      own, so that `x` stays ahead of later elements with an equal key. */
  function InsertDesc<T>(x: T, s: seq<T>, key: T -> real): (r: seq<T>)
    ensures |r| == |s| + 1
    ensures multiset(r) == multiset(s) + multiset{x}
  {
    if s == [] || key(s[0]) <= key(x) then
      [x] + s
    else
      var t := InsertDesc(x, s[1..], key);
      assert s == [s[0]] + s[1..];
      [s[0]] + t
  }

  /** Every element of an insertion comes from the sequence or is `x`. */
  lemma {:induction false} InsertDescFrom<T>(x: T, s: seq<T>, key: T -> real)
    ensures forall i :: 0 <= i < |InsertDesc(x, s, key)| ==> InsertDesc(x, s, key)[i] == x || InsertDesc(x, s, key)[i] in s
  {
    var r := InsertDesc(x, s, key);
    forall i | 0 <= i < |r| ensures r[i] == x || r[i] in s {
      assert r[i] in multiset(r);
    }
  }

  /** Inserting into a sorted sequence keeps it sorted. */
  lemma {:induction false} InsertDescSorted<T>(x: T, s: seq<T>, key: T -> real)
    requires SortedDesc(s, key)
    ensures SortedDesc(InsertDesc(x, s, key), key)
  {
    if s != [] && key(s[0]) > key(x) {
      var t := InsertDesc(x, s[1..], key);
      assert SortedDesc(s[1..], key);
      InsertDescSorted(x, s[1..], key);
      InsertDescFrom(x, s[1..], key);
      var r := [s[0]] + t;
      forall i, j | 0 <= i < j < |r| ensures key(r[i]) >= key(r[j]) {
        if i == 0 {
          assert r[j] == t[j - 1];
          if t[j - 1] != x {
            var k :| 0 <= k < |s[1..]| && s[1..][k] == t[j - 1];
            assert s[k + 1] == t[j - 1];
          }
        } else {
          assert r[i] == t[i - 1] && r[j] == t[j - 1];
        }
      }
    }
  }

  /** The sorted permutation of `s`. */
  function SortDesc<T>(s: seq<T>, key: T -> real): (r: seq<T>)
    ensures |r| == |s|
    ensures multiset(r) == multiset(s)
    ensures SortedDesc(r, key)
  {
    if s == [] then []
    else
      var r := InsertDesc(s[0], SortDesc(s[1..], key), key);
      InsertDescSorted(s[0], SortDesc(s[1..], key), key);
      assert s == [s[0]] + s[1..];
      r
  }

  /** Inserting `x` only adds `x` to the front of its own key class. */
  lemma {:induction false} InsertDescWithKey<T>(x: T, s: seq<T>, key: T -> real, v: real)
    ensures WithKey(InsertDesc(x, s, key), key, v)
         == (if key(x) == v then [x] else []) + WithKey(s, key, v)
  {
    if s == [] || key(s[0]) <= key(x) {
      assert ([x] + s)[1..] == s;
    } else {
      InsertDescWithKey(x, s[1..], key, v);
      var t := InsertDesc(x, s[1..], key);
      assert ([s[0]] + t)[1..] == t;
      assert WithKey(s, key, v) == (if key(s[0]) == v then [s[0]] else []) + WithKey(s[1..], key, v);
    }
  }

  /** Stability: every class of equal keys keeps its input order. */
  lemma {:induction false} SortDescStable<T>(s: seq<T>, key: T -> real, v: real)
    ensures WithKey(SortDesc(s, key), key, v) == WithKey(s, key, v)
  {
    if s != [] {
      SortDescStable(s[1..], key, v);
      InsertDescWithKey(s[0], SortDesc(s[1..], key), key, v);
    }
  }

  /** Sorting rearranges, so every sum over the elements is unchanged. */
  lemma {:induction false} SortDescSum<T>(s: seq<T>, key: T -> real, f: T -> real)
    ensures SumBy(SortDesc(s, key), f) == SumBy(s, f)
  {
    if s != [] {
      SortDescSum(s[1..], key, f);
      InsertDescSum(s[0], SortDesc(s[1..], key), key, f);
    }
  }

  lemma {:induction false} InsertDescSum<T>(x: T, s: seq<T>, key: T -> real, f: T -> real)
    ensures SumBy(InsertDesc(x, s, key), f) == f(x) + SumBy(s, f)
  {
    if s == [] || key(s[0]) <= key(x) {
      assert ([x] + s)[1..] == s;
    } else {
      InsertDescSum(x, s[1..], key, f);
      var t := InsertDesc(x, s[1..], key);
      assert ([s[0]] + t)[1..] == t;
    }
  }

  /** Sorting keeps a property every element has. */
  lemma {:induction false} SortKeepsProperty<T>(s: seq<T>, key: T -> real, p: T -> bool)
    requires forall i :: 0 <= i < |s| ==> p(s[i])
    ensures forall i :: 0 <= i < |SortDesc(s, key)| ==> p(SortDesc(s, key)[i])
  {
    var r := SortDesc(s, key);
    forall i | 0 <= i < |r| ensures p(r[i]) {
      assert r[i] in multiset(s);
      var j :| 0 <= j < |s| && s[j] == r[i];
    }
  }

  /** A prefix of a sorted sequence is sorted. */
  lemma {:induction false} SortedPrefix<T>(s: seq<T>, key: T -> real, k: nat)
    requires SortedDesc(s, key) && k <= |s|
    ensures SortedDesc(s[..k], key)
  {
    forall i, j | 0 <= i < j < k ensures key(s[..k][i]) >= key(s[..k][j]) {
      assert s[..k][i] == s[i] && s[..k][j] == s[j];
    }
  }

  /** A prefix holds no element more often than the whole sequence. */
  lemma {:induction false} PrefixMultiset<T>(s: seq<T>, k: nat)
    requires k <= |s|
    ensures multiset(s[..k]) <= multiset(s)
  {
    assert s == s[..k] + s[k..];
  }

  /** In a sorted sequence nothing outside a prefix is larger than anything
      inside it. */
  lemma {:induction false} SortedPrefixLargest<T>(s: seq<T>, key: T -> real, k: nat, x: T)
    requires SortedDesc(s, key) && k <= |s|
    requires x in s && x !in s[..k]
    ensures forall i :: 0 <= i < k ==> key(x) <= key(s[i])
  {
    var j :| 0 <= j < |s| && s[j] == x;
    assert forall i :: 0 <= i < k ==> s[..k][i] == s[i];
    assert j >= k;
  }
}

=== FILE: wrappers.dfy ===
/** Failure-compatible wrappers shared by the model: `Option` for the optional
    fields and lookups of the source, `Result` for its thrown errors. */
module Wrappers {

  datatype Option<+T> = None | Some(value: T)

  datatype Result<+R, +E> = Success(value: R) | Failure(error: E)
}
